=== FILE: README.md ===
# eventosfisio dashboard — a Dafny model of its page logic

eventosfisio is a single-page dashboard for planning physiotherapy events. It has a task
board, an event form, a people-management page, an archive of past events, a provider
details page, mock authentication and a route table with two guards. The pages keep their
state in React hooks. Their behaviour lies in small deterministic rules inside the event
handlers. This project writes those rules as pure Dafny functions over immutable records
and proves what the pages promise about them:

- which record an update changes;
- the order and length of the lists;
- the bounds of the swipe offset and of the wizard step;
- freedom from duplicates;
- how the redirects of the route guards settle.

Module layout, following the source files:

| module | file | models |
|---|---|---|
| `TaskBoard` | task_board.dfy | `TarefasPage`: swipe gesture, save, drag-and-drop, filters |
| `Dashboard` | dashboard.dfy | `DashboardPage`: status filter, save, drag-and-drop by id, filters |
| `EventWizard` | event_wizard.dfy | `EventoFormPage`: step validation, step counter, field updates, progress bar |
| `People` | people.dfy | `GerenciarPessoasPage`: skill and specialty lists, save, provider filter |
| `History` | history.dfy | `HistoricoEventosPage`: year options, filter, status labels, restore |
| `ProviderDetails` | provider_details.dfy | `PrestadorDetalhesPage`: WhatsApp link, event counts |
| `Auth` | auth.dfy | `AuthContext`: restore on mount, login, logout |
| `Routes` | routes.dfy | `App`: route table, `ProtectedRoute`, `AdminRoute` |
| `Seqs`, `Strings`, `UriEncoding`, `Wrappers` | seqs.dfy, strings.dfy, uri_encoding.dfy, wrappers.dfy | `Array.prototype.filter`, `trim`/`toLowerCase`/`includes`, `encodeURIComponent`, `Option`/`Result` |

Identifiers from `Date.now()` and timestamps from `new Date()` are passed in as parameters
(`freshId`, `now`). The answer of `confirm` is a boolean parameter. A call to `navigate`
becomes a returned destination. Where the code would throw, the model returns an error
value:

- `TaskBoard.OnDragEnd` returns `Failure` when the dragged position holds no task.
- `People.FilterPrestadores` returns `Failure` when the name lookup of a provider finds no
  name.
- `Auth.Login` returns the error message of rejected credentials.

## Model

| member | source | states |
|---|---|---|
| TaskBoard.IndexOfStatus | src/app/pages/TarefasPage.tsx:54-55 | the position of a status in the four-column order backlog, todo, doing, done; -1 exactly for a status outside it (archived) |
| TaskBoard.Clamp | src/app/pages/TarefasPage.tsx:43-47 | the swipe offset always lies in [-100, 100], equals the travel when the travel is in range, and keeps its sign |
| TaskBoard.ClampIsNearest | src/app/pages/TarefasPage.tsx:44-45 | the clamped offset is the allowed value nearest to the travel |
| TaskBoard.TouchStart | src/app/pages/TarefasPage.tsx:32-35 | a touch records where it began and shows the swipe hint, leaving the offset as it was |
| TaskBoard.TouchMove | src/app/pages/TarefasPage.tsx:37-48 | the offset stays in range; a touch that began at x = 0 is ignored; a travel within 100 pixels becomes the offset unchanged, a longer one is cut to 100 or -100 with its sign |
| TaskBoard.SwipeTarget | src/app/pages/TarefasPage.tsx:50-71 | below 50 pixels no status change; a positive swipe moves to the previous column and a negative one to the next, with nothing emitted at backlog or done; an archived task goes to backlog on any swipe past the threshold; the target is never the current status |
| TaskBoard.TouchEnd | src/app/pages/TarefasPage.tsx:50-96 | releasing resets the gesture and announces a change only past the threshold and only to a different status |
| TaskBoard.SwipeBack | src/app/pages/TarefasPage.tsx:62-68 | a swipe that moved a task between columns is undone by a swipe the other way |
| TaskBoard.MergeForm | src/app/pages/TarefasPage.tsx:707-715 | an edit keeps id, creator and creation time, stamps the update time, and takes each field from the form when the form has it and from the task otherwise |
| TaskBoard.NewTask | src/app/pages/TarefasPage.tsx:720-732 | a new task gets the fresh id, creator "1", both timestamps, status todo and priority medium unless the form sets them, and an empty title by default |
| TaskBoard.SaveTask | src/app/pages/TarefasPage.tsx:704-742 | editing keeps the length, leaves every task with another id equal and merges the form into the matching ones; adding appends exactly one new task after the unchanged list |
| TaskBoard.SaveTaskKeepsIds | src/app/pages/TarefasPage.tsx:705-719 | an edit keeps every id in its place |
| TaskBoard.SaveTaskEditIdempotent | src/app/pages/TarefasPage.tsx:705-719 | saving the same edit twice equals saving it once |
| TaskBoard.ColumnTasks | src/app/pages/TarefasPage.tsx:761 | the tasks of a column are exactly the board's tasks with that status, each as often as on the board, in board order |
| TaskBoard.OnDragEnd | src/app/pages/TarefasPage.tsx:745-793 | no destination, or the same column and index, changes nothing; otherwise the source.index-th task of the source column gets the destination status and goes to the end, the others keep their order and their number of copies, and the move fails exactly when that position is empty |
| TaskBoard.OnDragEndKeepsLength | src/app/pages/TarefasPage.tsx:785-792 | with unique ids a move neither loses nor duplicates a task |
| TaskBoard.DestinationIndexIgnored | src/app/pages/TarefasPage.tsx:761-792 | two drops into the same column at different positions give the same board |
| TaskBoard.ApplyFilters | src/app/pages/TarefasPage.tsx:796-808 | the shown tasks are exactly those matching the search and the priority, in board order, each as often as on the board; a blank search with all priorities shows every task |
| Dashboard.PriorityNameInjective | src/app/pages/DashboardPage.tsx:20-29 | each priority has its own spelling, so the priority drop-down selects exactly one |
| Dashboard.FilterEventos | src/app/pages/DashboardPage.tsx:132-138 | 'todos' shows every event; any other value shows exactly the events with that status, in order, each as often as in the list |
| Dashboard.SaveTask | src/app/pages/DashboardPage.tsx:167-178 | a new task is appended once under the fresh id; an edited one replaces exactly the tasks with its id |
| Dashboard.SaveTaskUnknownId | src/app/pages/DashboardPage.tsx:174-176 | editing a task whose id is not on the board leaves the board unchanged |
| Dashboard.SaveTaskEditIdempotent | src/app/pages/DashboardPage.tsx:174-176 | saving the same edit twice equals saving it once |
| Dashboard.FindIndex | src/app/pages/DashboardPage.tsx:193 | the first task with the id, or none when no task has it |
| Dashboard.OnDragEnd | src/app/pages/DashboardPage.tsx:180-199 | no destination, the same place, or an unknown id changes nothing; otherwise only the first task with the dragged id changes, and only in its status, which becomes the destination column; length and order are kept |
| Dashboard.OnDragEndKeepsIds | src/app/pages/DashboardPage.tsx:192-198 | a drag keeps every id in its place |
| Dashboard.ApplyFilters | src/app/pages/DashboardPage.tsx:202-212 | the shown tasks are exactly those matching the search and the priority, in order, each as often as in the list; an empty search with 'todas' shows every task |
| Dashboard.BlankSearchIsNotTrimmed | src/app/pages/DashboardPage.tsx:203-205 | the search is not trimmed: a one-blank term hides every task with no blank in its title or description |
| EventWizard.RequiredFields | src/app/pages/EventoFormPage.tsx:84-95 | steps 1, 2 and 3 require fields and no other step does |
| EventWizard.ValidateStep | src/app/pages/EventoFormPage.tsx:84-95 | `validateStep`: steps other than 1 to 3 are always valid, and a valid step has every field it requires filled in |
| EventWizard.ValidateStepMeansRequiredFilled | src/app/pages/EventoFormPage.tsx:84-95 | a step is valid exactly when every field it requires is filled in |
| EventWizard.ValidityIgnoresOtherFields | src/app/pages/EventoFormPage.tsx:84-95 | writing a field no step requires, such as prestadoresNecessarios, changes no step's validity |
| EventWizard.NextStep | src/app/pages/EventoFormPage.tsx:97-101 | the step goes up by exactly one when it is below 3 and valid, and stays otherwise |
| EventWizard.PrevStep | src/app/pages/EventoFormPage.tsx:103-110 | the step goes down by one above step 1; at step 1 it stays and the page leaves for /dashboard |
| EventWizard.HandleChange | src/app/pages/EventoFormPage.tsx:50-65 | only the named field changes: a checkbox stores its checked flag, any other input its text |
| EventWizard.RunKeepsStepInRange | src/app/pages/EventoFormPage.tsx:10-11 | the step stays within 1..3 under any sequence of next, back and edits |
| EventWizard.InitialFormBlocksFirstStep | src/app/pages/EventoFormPage.tsx:14-29 | the fresh form cannot leave step 1 |
| EventWizard.ProgressWidth | src/app/pages/EventoFormPage.tsx:145 | the progress bar is 0% at step 1, 100% at step 3 and within 0..100% on every step |
| EventWizard.ProgressWidthIsLinear | src/app/pages/EventoFormPage.tsx:145 | each step adds 50% to the bar |
| People.OpenForm | src/app/pages/GerenciarPessoasPage.tsx:32-56 | opening the form for a provider copies all eight of its fields, a missing bank information becoming ""; with no provider it starts from the blank form |
| People.AddTrimmed | src/app/pages/GerenciarPessoasPage.tsx:70-78 | the trimmed input is appended exactly when it is non-empty and not yet listed; the input is cleared exactly then; a duplicate-free list stays duplicate-free |
| People.AddSkill | src/app/pages/GerenciarPessoasPage.tsx:70-78 | the skills and the skill input become what the add button of a list gives for them; nothing else in the form changes, and the skills stay duplicate-free |
| People.AddSpecialty | src/app/pages/GerenciarPessoasPage.tsx:87-95 | the specialties and the specialty input become what the add button of a list gives for them; nothing else in the form changes, and the specialties stay duplicate-free |
| People.RemoveAll | src/app/pages/GerenciarPessoasPage.tsx:80-85 | every occurrence of the value goes and every other entry stays, in order and as often as before |
| People.RemoveSkill | src/app/pages/GerenciarPessoasPage.tsx:80-85 | the skills lose every occurrence of the value and keep the rest in order; nothing else in the form changes |
| People.RemoveSpecialty | src/app/pages/GerenciarPessoasPage.tsx:97-102 | the specialties lose every occurrence of the value and keep the rest in order; nothing else in the form changes |
| People.RemoveUndoesAdd | src/app/pages/GerenciarPessoasPage.tsx:70-85 | removing what was just added restores the list |
| People.Submitted | src/app/pages/GerenciarPessoasPage.tsx:104-116 | the form hands over every one of its fields |
| People.MergeSubmitted | src/app/pages/GerenciarPessoasPage.tsx:397-410 | saving a submitted form over a provider takes every field from the form and keeps id and creation time |
| People.SaveUnchangedForm | src/app/pages/GerenciarPessoasPage.tsx:32-56 | opening a provider and saving the form unchanged gives the provider back with a new update time, a missing bank information turned into "" |
| People.MergeData | src/app/pages/GerenciarPessoasPage.tsx:398-410 | an edit keeps id and creation time, stamps the update time, and takes each of the eight form fields from the data when given and from the provider otherwise |
| People.NewPrestador | src/app/pages/GerenciarPessoasPage.tsx:412-428 | a new provider gets the fresh id, the time as both timestamps, the given user id and bio or "" for a missing one, the given lists or [], and the given bank details; it is available unless told otherwise, gets rating 5 when the rating is missing or 0 and hourly rate 0 when missing |
| People.SavePrestador | src/app/pages/GerenciarPessoasPage.tsx:397-433 | editing changes exactly the providers with the selected id and keeps the length; adding appends one new provider |
| People.SavePrestadorKeepsIds | src/app/pages/GerenciarPessoasPage.tsx:398-410 | an edit keeps every id in its place |
| People.ParseInt | src/app/pages/GerenciarPessoasPage.tsx:452 | `parseInt` of a blank id is NaN, and a number comes only from an id holding a decimal digit |
| People.ParseOneDigit | src/app/pages/GerenciarPessoasPage.tsx:452 | `parseInt` of a lone decimal digit is that digit's value |
| People.UserName | src/app/pages/GerenciarPessoasPage.tsx:452-453 | a name is found exactly when parseInt of the user id is between 1 and 4, and it is entry parseInt(userId) - 1 of the name table |
| People.NameAt | src/app/pages/GerenciarPessoasPage.tsx:452-453 | entry n - 1 of the four-name table, present exactly for n in 1..4 |
| People.UserNameOfKnownIds | src/app/pages/GerenciarPessoasPage.tsx:452-453 | ids "1" to "4" name the four mock users; "0" and "5" name nobody |
| People.UserNameOfEmptyId | src/app/pages/GerenciarPessoasPage.tsx:452-453 | an empty user id names nobody |
| People.KeepMeaning | src/app/pages/GerenciarPessoasPage.tsx:436-463 | a kept provider is available when only available ones are shown, has a specialty containing the fragment, and matches the text by name, skill or bio; the lookup fails exactly when the first two tests pass, a text is given and the id names nobody |
| People.FilterPrestadores | src/app/pages/GerenciarPessoasPage.tsx:436-463 | the shown providers are exactly those the three tests keep, in order; the filter fails exactly when some provider's name lookup fails |
| People.FilterWithoutTextSucceeds | src/app/pages/GerenciarPessoasPage.tsx:449-461 | without a text to search, no name is looked up and the filter cannot fail |
| History.ParseStatusName | src/app/pages/HistoricoEventosPage.tsx:207-217 | every status is recognised from its own spelling |
| History.FormatarStatus | src/app/pages/HistoricoEventosPage.tsx:207-217 | the six known statuses get their labels; any other string comes back unchanged |
| History.FormatarStatusIdempotent | src/app/pages/HistoricoEventosPage.tsx:207-217 | no label is itself a status spelling, so formatting twice equals formatting once |
| History.YearList | src/app/pages/HistoricoEventosPage.tsx:27-29 | the distinct event years, strictly descending |
| History.YearListIsCanonical | src/app/pages/HistoricoEventosPage.tsx:27-29 | any strictly descending list of exactly the event years is the year list |
| History.DescendingIsUnique | src/app/pages/HistoricoEventosPage.tsx:27-29 | two strictly descending lists with the same elements are equal |
| History.YearOptions | src/app/pages/HistoricoEventosPage.tsx:27-31 | 'todos' first, then each event year once in strictly descending order; every event's year is offered and every offered year is some event's |
| History.FilterEventos | src/app/pages/HistoricoEventosPage.tsx:178-204 | the shown events are exactly those passing the status, year and keyword tests, in order, each as often as in the list; with 'todos', 'todos' and no keyword all events are shown |
| History.RestaurarEvento | src/app/pages/HistoricoEventosPage.tsx:238-248 | once confirmed, exactly the events with the id get arquivado false and the rest stay; unconfirmed, nothing changes |
| History.RestaurarIdempotent | src/app/pages/HistoricoEventosPage.tsx:238-248 | restoring twice equals restoring once |
| History.FilterIgnoresArchiveFlag | src/app/pages/HistoricoEventosPage.tsx:178-204 | the filter does not look at the archive flag, so a restored event stays listed |
| ProviderDetails.PhoneDigits | src/app/pages/PrestadorDetalhesPage.tsx:56 | the stripped number holds only digits, keeps every digit of the phone as often as it occurs and in order, and drops everything else; an all-digit number is unchanged |
| ProviderDetails.PhoneDigitsIdempotent | src/app/pages/PrestadorDetalhesPage.tsx:56 | stripping twice equals stripping once |
| ProviderDetails.Greeting | src/app/pages/PrestadorDetalhesPage.tsx:57 | the invitation opens with the greeting, then the provider's name, then the invitation text |
| ProviderDetails.GreetingNameOfGreeting | src/app/pages/PrestadorDetalhesPage.tsx:57 | the name can be read back from the invitation |
| ProviderDetails.WhatsAppLink | src/app/pages/PrestadorDetalhesPage.tsx:55-59 | the link starts with https://wa.me/ and its remainder needs no further escaping |
| ProviderDetails.WhatsAppLinkRoundTrip | src/app/pages/PrestadorDetalhesPage.tsx:55-59 | reading the link back gives the stripped phone number and the full invitation text |
| ProviderDetails.EventosConfirmados | src/app/pages/PrestadorDetalhesPage.tsx:62-63 | the confirmed count is at most the total, equals it exactly when every assignment is confirmed, and is 0 exactly when none is |
| ProviderDetails.EventosConfirmadosAdd | src/app/pages/PrestadorDetalhesPage.tsx:63 | the count of two joined lists is the sum of their counts |
| Auth.Mount | src/app/contexts/AuthContext.tsx:28-42 | a stored user is restored; a non-empty unreadable value is removed and nobody is signed in; loading ends in every case |
| Auth.Authenticate | src/app/contexts/AuthContext.tsx:52-74 | a signed-in user carries the email that was entered |
| Auth.AuthenticateMatchesAccounts | src/app/contexts/AuthContext.tsx:52-74 | a pair of credentials is accepted exactly when it is one of the two mock accounts, and signs in that account's user |
| Auth.Login | src/app/contexts/AuthContext.tsx:44-77 | accepted credentials sign the user in, store it and end loading; rejected ones throw "Credenciais inválidas", leave user and storage as they were, and leave loading on |
| Auth.Logout | src/app/contexts/AuthContext.tsx:79-82 | the user is forgotten in memory and in the storage |
| Auth.LoginAdmin | src/app/contexts/AuthContext.tsx:52-61 | admin@example.com with "password" signs in user "1" as admin |
| Auth.LoginRegularUser | src/app/contexts/AuthContext.tsx:62-71 | user@example.com with "password" signs in user "2" with the user role |
| Auth.RejectedLoginKeepsSignedOut | src/app/contexts/AuthContext.tsx:72-76 | a rejected login signs nobody in and leaves loading on |
| Auth.LoginSurvivesReload | src/app/contexts/AuthContext.tsx:28-77 | after a successful login a reload restores the same user |
| Auth.LogoutSurvivesReload | src/app/contexts/AuthContext.tsx:28-82 | after a logout a reload signs nobody in |
| Auth.ReloadIdempotent | src/app/contexts/AuthContext.tsx:28-42 | reloading twice gives the same session as reloading once |
| Auth.RunKeepsConsistent | src/app/contexts/AuthContext.tsx:28-88 | under any sequence of reloads, logins and logouts, the signed-in user is the stored one |
| Routes.Protected | src/App.tsx:15-23 | the page renders exactly for a signed-in user; anyone else goes to /login |
| Routes.AdminOnly | src/App.tsx:26-34 | the page renders exactly for an administrator; anyone else goes to /dashboard |
| Routes.Resolve | src/App.tsx:36-100 | every redirect goes to /login or /dashboard; a visitor nobody has signed in as sees only the login page or a redirect; a signed-in user is redirected only to /dashboard |
| Routes.SegmentsOfJoin | src/App.tsx:42-99 | a path built from segments splits back into those segments |
| Routes.ResolvePathOf | src/App.tsx:42-96 | every page, at its own path, renders behind its own guard: none for login, the admin guard for settings, the sign-in guard for the rest; static segments win over :id |
| Routes.SignedInReachesPage | src/App.tsx:44-96 | a signed-in user reaches every page at its path, including /eventos/:id and /prestadores/:id, and the settings as an administrator |
| Routes.SettingsNeedAdmin | src/App.tsx:86-90 | /configuracoes renders for an administrator and sends everyone else to /dashboard |
| Routes.AnonymousLandsOnLogin | src/App.tsx:15-23 | whatever the path, a visitor nobody has signed in as ends on the login page within two redirects |
| Routes.SignedInSettles | src/App.tsx:26-99 | a signed-in user is never sent to /login and reaches a page after at most one redirect |
| Routes.RootGoesToDashboard | src/App.tsx:98 | / redirects to /dashboard |
| Routes.FitsOwnSegments | src/App.tsx:42-96 | each page's own path fits that page's route pattern |
| Routes.UnmatchedRoute | src/App.tsx:36-99 | segments that fit no page's pattern, of any number, go to /dashboard, signed in or not |
| Routes.UnknownGoesToDashboard | src/App.tsx:99 | any path whose segments fit no page's pattern (/foo, /foo/bar, /tarefas/x, /eventos/editar/1/x) redirects to /dashboard |
| Routes.DashboardEventLinkAsWrittenMisses | src/app/pages/DashboardPage.tsx:141-147 | as written, the new-event and details buttons send a signed-in user back to /dashboard |
| Routes.DashboardEventLinkServes | src/app/pages/DashboardPage.tsx:141-147 | under /eventos, the buttons open the creation form for "novo" and the event's details for any other id |
| Seqs.Filter | src/app/pages/HistoricoEventosPage.tsx:178 | filtering keeps exactly the elements that pass, in their order, and keeps the whole list when all pass |
| Seqs.FilterIdempotent | src/app/pages/GerenciarPessoasPage.tsx:80-85 | filtering twice with the same test equals filtering once |
| Seqs.FilterKeepsNoDuplicates | src/app/pages/GerenciarPessoasPage.tsx:80-85 | removing from a duplicate-free list leaves it duplicate-free |
| Seqs.FilterConcat | src/app/pages/PrestadorDetalhesPage.tsx:63 | filtering a joined list filters each part |
| Strings.Trim | src/app/pages/TarefasPage.tsx:799 | the trimmed term is the input with a whitespace prefix and a whitespace suffix cut off, neither starts nor ends with whitespace, and is empty exactly for an all-whitespace term |
| Strings.TrimIdempotent | src/app/pages/GerenciarPessoasPage.tsx:71 | trimming twice equals trimming once |
| Strings.TrimIsContained | src/app/pages/GerenciarPessoasPage.tsx:71 | the trimmed text occurs in the original |
| Strings.Lower | src/app/pages/TarefasPage.tsx:800-801 | `toLowerCase` keeps the length, lowers each letter A-Z and leaves no upper-case ASCII letter |
| Strings.ContainsChar | src/app/pages/TarefasPage.tsx:800-801 | `includes` of a one-character string holds exactly when that character occurs |
| Strings.SliceIsContained | src/app/pages/TarefasPage.tsx:800-801 | `includes` holds for every contiguous slice of the text |
| Strings.LowerIdempotent | src/app/pages/TarefasPage.tsx:800 | lowering twice equals lowering once |
| UriEncoding.EncodeUriComponent | src/app/pages/PrestadorDetalhesPage.tsx:57 | the encoded message holds only unreserved characters and percent escapes |
| UriEncoding.DecodeEncode | src/app/pages/PrestadorDetalhesPage.tsx:57 | decoding the encoded message gives back the message |

## Left out

- Rendering is left out: JSX, CSS classes, SVG, modals, `alert`, the notification `div`, and `window.open` (the link it opens is modelled).
- The `CustomEvent` that `TaskCard` dispatches becomes the returned `moveTo` status.
- The `setTimeout` delays and the `async` steps of login, form submit and the mock loads are left out; a login is one step.
- `handleSubmit` of the event form only waits and navigates to /dashboard, so it is left out.
- `localStorage` becomes the `Stored` value of the session, and `JSON.parse`/`stringify` become `Saved`/`Unreadable`.
- Auth.Mount: a stored value that parses as JSON but is not a user object (say `42`) is not modelled; in the code it would become the user.
- `useAuth` throwing outside its provider is not modelled.
- `Date.now()` ids and `new Date()` timestamps are parameters.
- `getPrestadoresConfirmados` in `DashboardPage` is left out because it depends on `Math.random`.
- Ratings, rates and prices are `real`; `parseFloat` in the provider form's `handleChange`, `NaN`, `Math.round`, `toFixed` and date formatting are not modelled.
- History.YearList: orders years numerically where the code compares the year strings with `localeCompare`. The two agree for years of the same number of digits.
- History.YearList: years are an `int` field of the event, not `getFullYear()` of a date string, which depends on the time zone.
- Strings.Lower: lowers only the ASCII letters A-Z, where `toLowerCase` follows the full Unicode case mapping.
- UriEncoding.EncodeUriComponent: Dafny strings hold Unicode scalar values, so the lone surrogates for which `encodeURIComponent` throws cannot occur.
- Routes.Resolve: react-router's matcher is reduced to its effect on these routes. Empty segments are dropped, static segments match without regard to ASCII case, and `:id` parameters are taken as they appear, without percent-decoding.
- The spread of a key explicitly set to `undefined` is not modelled; a field the form leaves out is `None` and keeps the old value.
- TaskBoard.OnDragEnd: the code sets the status on the shared task object in place before it copies it. The model builds a new record, which is the state the page ends up with.
- With a search or priority filter active, the task columns number the filtered cards, while `onDragEnd` indexes the unfiltered column. The model keeps the code's indexing and has no corrected drag.
- The swipe threshold indicator (`getNextStatusIndicator`) and the split of the board into columns for display are presentation.
- `TaskFormModal` and `TaskCard` as used by `DashboardPage` are not part of this model.
- src/app/App.tsx is not part of this model: it repeats the guards of src/App.tsx without the catch-all route.
- `ConfiguracoesPage`, `EventoDetalhesPage` and `ThemeContext` are not part of this model: static markup, a timed mock load and a constant theme.
- The internals of react-beautiful-dnd, ReactQuill and react-router are left out; a drop is the input record `DropResult`.

## Findings

| source | as written | input that shows it | evidently intended | confidence | as-written member | corrected member |
|---|---|---|---|---|---|---|
| src/app/pages/DashboardPage.tsx:141-147 | `criarNovoEvento` and `verDetalhesEvento` navigate to `/evento/novo` and `/evento/<id>` | a signed-in user pressing either button, any id | the `/eventos/novo` and `/eventos/:id` routes | high, not executed | Routes.DashboardEventLinkAsWrittenMisses | Routes.DashboardEventLinkServes |

=== FILE: auth.dfy ===
/**
  The mock authentication context: a session of the signed-in user, the loading flag and the
  browser's stored copy of the user, with the restore-on-mount, login and logout transitions.
  The one-second delay of `login` is left out, so a login is a single step.
 */
module Auth {
  import opened Wrappers

  datatype Role = Admin | RegularUser

  datatype User = User(id: string, name: string, email: string, role: Role)

  /**
    The `user` entry of the browser storage: missing, the serialised form of a user, or a
    raw value that does not parse as one. The empty string is such a raw value.
   */
  datatype Stored = Absent | Saved(user: User) | Unreadable(raw: string)

  datatype Session = Session(user: Option<User>, isLoading: bool, storage: Stored)

  /** A provider just created: nobody signed in yet and the restore still pending. */
  function Initial(storage: Stored): Session {
    Session(None, true, storage)
  }

  /** The signed-in user is remembered in the storage, so a reload brings it back. */
  predicate Consistent(s: Session) {
    s.user.Some? ==> s.storage == Saved(s.user.value)
  }

  /**
    The restore on mount. A stored user comes back; a non-empty value that does not parse is
    removed; an empty value is falsy and left alone. Loading is over in every case.
   */
  function Mount(storage: Stored): (r: Session)
    ensures !r.isLoading
    ensures r.user.Some? <==> storage.Saved?
    ensures r.user.Some? ==> r.user.value == storage.user
    ensures storage.Unreadable? && storage.raw != "" ==> r.storage == Absent
    ensures !(storage.Unreadable? && storage.raw != "") ==> r.storage == storage
    ensures Consistent(r)
  {
    var s := Initial(storage);
    match storage
    case Absent => s.(isLoading := false)
    case Saved(u) => s.(user := Some(u), isLoading := false)
    case Unreadable(raw) =>
      if raw != "" then s.(storage := Absent, isLoading := false)
      else s.(isLoading := false)
  }

  /** One accepted pair of credentials and the user it signs in. */
  datatype Account = Account(email: string, password: string, user: User)

  const AdminUser: User := User("1", "Administrador", "admin@example.com", Admin)
  const RegularAccountUser: User := User("2", "Usu\U{00E1}rio", "user@example.com", RegularUser)

  /** The credential table, as a reference for the checks `login` performs. */
  const Accounts: seq<Account> := [
    Account("admin@example.com", "password", AdminUser),
    Account("user@example.com", "password", RegularAccountUser)
  ]

  /** The two hard-coded checks of `login`, in their order. */
  function Authenticate(email: string, password: string): (r: Option<User>)
    ensures r.Some? ==> r.value.email == email
  {
    if email == "admin@example.com" && password == "password" then Some(AdminUser)
    else if email == "user@example.com" && password == "password" then Some(RegularAccountUser)
    else None
  }

  /** A pair is accepted exactly when the table lists it, and it signs in the listed user. */
  lemma AuthenticateMatchesAccounts(email: string, password: string, u: User)
    ensures Authenticate(email, password) == Some(u)
      <==> exists i :: 0 <= i < |Accounts| && Accounts[i] == Account(email, password, u)
  {
    if Authenticate(email, password) == Some(u) {
      if email == "admin@example.com" && password == "password" {
        assert Accounts[0] == Account(email, password, u);
      } else {
        assert Accounts[1] == Account(email, password, u);
      }
    }
  }

  const InvalidCredentials: string := "Credenciais inv\U{00E1}lidas"

  /** A login's resulting session and, when it threw, the error message. */
  datatype LoginOutcome = LoginOutcome(session: Session, error: Option<string>)

  /**
    `login`: loading is switched on first; accepted credentials sign the user in, store it and
    switch loading off; rejected ones throw before loading is switched off again.
   */
  function Login(s: Session, email: string, password: string): (r: LoginOutcome)
    ensures r.error.None? <==> Authenticate(email, password).Some?
    ensures r.error.None? ==>
      && r.session.user == Authenticate(email, password)
      && r.session.storage == Saved(r.session.user.value)
      && !r.session.isLoading
    ensures r.error.Some? ==>
      && r.error.value == InvalidCredentials
      && r.session.user == s.user
      && r.session.storage == s.storage
      && r.session.isLoading
    ensures Consistent(s) ==> Consistent(r.session)
  {
    var loading := s.(isLoading := true);
    match Authenticate(email, password)
    case Some(u) => LoginOutcome(loading.(user := Some(u), storage := Saved(u), isLoading := false), None)
    case None => LoginOutcome(loading, Some(InvalidCredentials))
  }

  /** `logout`: the user is forgotten both in memory and in the storage. */
  function Logout(s: Session): (r: Session)
    ensures r.user.None? && r.storage == Absent
    ensures r.isLoading == s.isLoading
  {
    s.(user := None, storage := Absent)
  }

  /** The `isAuthenticated` flag the context exposes. */
  predicate IsAuthenticated(s: Session) {
    s.user.Some?
  }

  /** The administrator's credentials sign in user "1" with the admin role. */
  lemma LoginAdmin(s: Session)
    ensures var r := Login(s, "admin@example.com", "password");
      r.error.None? && IsAuthenticated(r.session)
      && r.session.user.value.id == "1" && r.session.user.value.role == Admin
  {
  }

  /** The regular user's credentials sign in user "2" with the user role. */
  lemma LoginRegularUser(s: Session)
    ensures var r := Login(s, "user@example.com", "password");
      r.error.None? && IsAuthenticated(r.session)
      && r.session.user.value.id == "2" && r.session.user.value.role == RegularUser
  {
  }

  /** A rejected login never signs anybody in. */
  lemma RejectedLoginKeepsSignedOut(s: Session, email: string, password: string)
    requires !IsAuthenticated(s)
    requires Authenticate(email, password).None?
    ensures !IsAuthenticated(Login(s, email, password).session)
    ensures Login(s, email, password).session.isLoading
  {
  }

  /** After a successful login, reloading the page restores the same user. */
  lemma LoginSurvivesReload(s: Session, email: string, password: string)
    requires Login(s, email, password).error.None?
    ensures Mount(Login(s, email, password).session.storage).user
      == Login(s, email, password).session.user
  {
  }

  /** After a logout, reloading the page signs nobody in. */
  lemma LogoutSurvivesReload(s: Session)
    ensures !IsAuthenticated(Mount(Logout(s).storage))
  {
  }

  /** Reloading twice ends in the same session as reloading once. */
  lemma ReloadIdempotent(storage: Stored)
    ensures Mount(Mount(storage).storage) == Mount(storage)
  {
  }

  /** The things that happen to the context over a page's life. */
  datatype AuthEvent = Reload | SignIn(email: string, password: string) | SignOut

  function Apply(s: Session, e: AuthEvent): Session {
    match e
    case Reload => Mount(s.storage)
    case SignIn(email, password) => Login(s, email, password).session
    case SignOut => Logout(s)
  }

  function Run(s: Session, events: seq<AuthEvent>): Session
    decreases |events|
  {
    if |events| == 0 then s else Run(Apply(s, events[0]), events[1..])
  }

  /** From a fresh provider, whoever is signed in is the user in the storage, whatever happens. */
  lemma {:induction false} RunKeepsConsistent(s: Session, events: seq<AuthEvent>)
    requires Consistent(s)
    ensures Consistent(Run(s, events))
    decreases |events|
  {
    if |events| > 0 {
      var next := Apply(s, events[0]);
      assert Consistent(next);
      RunKeepsConsistent(next, events[1..]);
    }
  }
}

=== FILE: dashboard.dfy ===
/**
  The dashboard page (`DashboardPage`), which declares its own `Evento` and `Task` records: the
  event status filter, saving a task, drag-and-drop by task id and the task filters.
 */
module Dashboard {
  import opened Wrappers
  import opened Seqs
  import opened Strings

  /** The dashboard's own event record; status is a free string. */
  datatype Evento = Evento(
    id: string,
    title: string,
    date: string,
    startTime: string,
    endTime: string,
    location: string,
    status: string,
    prestadoresNecessarios: Option<int>)

  /** The dashboard's priorities, spelled in Portuguese. */
  datatype Priority = Baixa | Media | Alta

  /** The spelling the priority drop-down compares against. */
  function PriorityName(p: Priority): (name: string)
    ensures name != "todas"
  {
    match p
    case Baixa => "baixa"
    case Media => "media"
    case Alta => "alta"
  }

  /** Distinct priorities have distinct spellings, so the drop-down selects exactly one. */
  lemma PriorityNameInjective(p: Priority, q: Priority)
    ensures PriorityName(p) == PriorityName(q) ==> p == q
  {
  }

  /** The dashboard's own task record; status is a free string naming a column. */
  datatype Task = Task(
    id: string,
    title: string,
    description: string,
    status: string,
    priority: Priority,
    dueDate: Option<string>,
    eventId: Option<string>,
    assignedTo: Option<string>)

  /** The value of the status drop-down that shows every event. */
  const AllStatuses := "todos"

  /** The value of the priority drop-down that shows every task. */
  const AllPriorities := "todas"

  /** The status-filter effect: `"todos"` keeps every event, any other value exactly the events with that status. */
  function FilterEventos(eventos: seq<Evento>, filtroStatus: string): (r: seq<Evento>)
    ensures filtroStatus == AllStatuses ==> r == eventos
    ensures IsSubsequence(r, eventos)
    ensures filtroStatus != AllStatuses ==> forall e | e in r :: e in eventos && e.status == filtroStatus
    ensures filtroStatus != AllStatuses ==> forall e | e in eventos && e.status == filtroStatus :: e in r
    ensures filtroStatus != AllStatuses ==> forall e :: multiset(r)[e] == if e.status == filtroStatus then multiset(eventos)[e] else 0
  {
    if filtroStatus == AllStatuses then
      assert IsSubsequence(Filter((e: Evento) => true, eventos), eventos);
      eventos
    else
      FilterCountsAll((e: Evento) => e.status == filtroStatus, eventos);
      Filter((e: Evento) => e.status == filtroStatus, eventos)
  }

  /** `handleSaveTask`: a new task is appended under `freshId`; an edited one replaces every task with its id. */
  function SaveTask(tasks: seq<Task>, task: Task, isNew: bool, freshId: string): (r: seq<Task>)
    ensures isNew ==> r == tasks + [task.(id := freshId)]
    ensures !isNew ==> |r| == |tasks|
    ensures !isNew ==> forall i :: 0 <= i < |tasks| && tasks[i].id != task.id ==> r[i] == tasks[i]
    ensures !isNew ==> forall i :: 0 <= i < |tasks| && tasks[i].id == task.id ==> r[i] == task
  {
    if isNew then tasks + [task.(id := freshId)]
    else seq(|tasks|, i requires 0 <= i < |tasks| => if tasks[i].id == task.id then task else tasks[i])
  }

  /** Editing a task whose id is not on the board leaves the board as it was. */
  lemma SaveTaskUnknownId(tasks: seq<Task>, task: Task, freshId: string)
    requires forall t | t in tasks :: t.id != task.id
    ensures SaveTask(tasks, task, false, freshId) == tasks
  {
  }

  /** Saving the same edit twice is the same as saving it once. */
  lemma SaveTaskEditIdempotent(tasks: seq<Task>, task: Task, freshId: string)
    ensures SaveTask(SaveTask(tasks, task, false, freshId), task, false, freshId) == SaveTask(tasks, task, false, freshId)
  {
  }

  /** A place on the board: a column (a status string) and a position in it. */
  datatype Location = Location(droppableId: string, index: int)

  /** What the drag-and-drop library reports when a drag ends. */
  datatype DropResult = DropResult(draggableId: string, source: Location, destination: Option<Location>)

  /** The position of the first task with this id, as `Array.prototype.find` would pick. */
  function FindIndex(tasks: seq<Task>, id: string): (r: Option<nat>)
    ensures r.Some? ==> r.value < |tasks| && tasks[r.value].id == id
    ensures r.Some? ==> forall k :: 0 <= k < r.value ==> tasks[k].id != id
    ensures r.None? ==> forall k :: 0 <= k < |tasks| ==> tasks[k].id != id
    decreases |tasks|
  {
    if |tasks| == 0 then None
    else if tasks[0].id == id then Some(0)
    else match FindIndex(tasks[1..], id)
      case None => None
      case Some(k) => Some(k + 1)
  }

  /**
    `onDragEnd`: the first task whose id is `draggableId` takes the destination column as its
    status; nothing else moves or changes.
   */
  function OnDragEnd(tasks: seq<Task>, drop: DropResult): (r: seq<Task>)
    ensures drop.destination.None? ==> r == tasks
    ensures drop.destination == Some(drop.source) ==> r == tasks
    ensures (forall t | t in tasks :: t.id != drop.draggableId) ==> r == tasks
    ensures |r| == |tasks|
    ensures forall i :: 0 <= i < |tasks| ==> r[i] == tasks[i] || r[i] == tasks[i].(status := drop.destination.value.droppableId)
    ensures forall i, j :: 0 <= i < j < |tasks| && r[i] != tasks[i] ==> r[j] == tasks[j]
    ensures forall i :: 0 <= i < |tasks| && r[i] != tasks[i] ==> tasks[i].id == drop.draggableId
    ensures forall i :: 0 <= i < |tasks| && r[i] != tasks[i] ==> FindIndex(tasks, drop.draggableId) == Some(i)
    ensures drop.destination.Some? && drop.destination != Some(drop.source) ==>
              forall i :: 0 <= i < |tasks| && tasks[i].id == drop.draggableId &&
                          (forall k :: 0 <= k < i ==> tasks[k].id != drop.draggableId) ==>
                r[i].status == drop.destination.value.droppableId
  {
    if drop.destination.None? || drop.destination == Some(drop.source) then tasks
    else match FindIndex(tasks, drop.draggableId)
      case None => tasks
      case Some(k) => tasks[k := tasks[k].(status := drop.destination.value.droppableId)]
  }

  /** A drag keeps the order of the ids on the board. */
  lemma OnDragEndKeepsIds(tasks: seq<Task>, drop: DropResult)
    ensures forall i :: 0 <= i < |tasks| ==> OnDragEnd(tasks, drop)[i].id == tasks[i].id
  {
  }

  /** The search test, untrimmed: only the empty term matches everything. */
  predicate MatchesSearch(t: Task, searchTerm: string) {
    || searchTerm == ""
    || Contains(Lower(t.title), Lower(searchTerm))
    || Contains(Lower(t.description), Lower(searchTerm))
  }

  predicate MatchesPriority(t: Task, selectedPriority: string) {
    selectedPriority == AllPriorities || PriorityName(t.priority) == selectedPriority
  }

  /** `tasks.filter(applyFilters)`: the tasks that pass both tests, in board order. */
  function ApplyFilters(tasks: seq<Task>, searchTerm: string, selectedPriority: string): (r: seq<Task>)
    ensures IsSubsequence(r, tasks)
    ensures forall t | t in r :: t in tasks && MatchesSearch(t, searchTerm) && MatchesPriority(t, selectedPriority)
    ensures forall t | t in tasks && MatchesSearch(t, searchTerm) && MatchesPriority(t, selectedPriority) :: t in r
    ensures searchTerm == "" && selectedPriority == AllPriorities ==> r == tasks
    ensures forall t :: multiset(r)[t] == if MatchesSearch(t, searchTerm) && MatchesPriority(t, selectedPriority) then multiset(tasks)[t] else 0
  {
    FilterCountsAll((t: Task) => MatchesSearch(t, searchTerm) && MatchesPriority(t, selectedPriority), tasks);
    Filter((t: Task) => MatchesSearch(t, searchTerm) && MatchesPriority(t, selectedPriority), tasks)
  }

  /** Unlike the task page, a search of one blank drops every task with no blank in its title or description. */
  lemma BlankSearchIsNotTrimmed(tasks: seq<Task>, t: Task, selectedPriority: string)
    requires ' ' !in t.title && ' ' !in t.description
    ensures t !in ApplyFilters(tasks, " ", selectedPriority)
  {
    LowerKeepsBlanksOut(t.title);
    LowerKeepsBlanksOut(t.description);
    ContainsChar(Lower(t.title), ' ');
    ContainsChar(Lower(t.description), ' ');
    assert Lower(" ") == " ";
  }
}

=== FILE: event_wizard.dfy ===
/**
  The three-step event form (`EventoFormPage`): per-step required fields, the step counter,
  field updates and the progress bar.
 */
module EventWizard {
  import opened Wrappers

  /** A form field holds text, or a flag for the checkbox. */
  datatype FieldValue = Text(text: string) | Flag(checked: bool)

  /** The form state: a JavaScript object, so any field name can be written. */
  type FormData = map<string, FieldValue>

  const TotalSteps := 3

  /** The form as the page first renders it. */
  const InitialForm: FormData := map[
    "title" := Text(""), "date" := Text(""), "startTime" := Text(""), "endTime" := Text(""),
    "location" := Text(""), "empresaId" := Text(""), "description" := Text(""),
    "responsibleName" := Text(""), "responsibleContact" := Text(""),
    "status" := Text("planejamento"), "estimatedAttendees" := Text(""), "eventType" := Text(""),
    "needsEquipment" := Flag(false), "prestadoresNecessarios" := Text("")]

  /** `!!formData[name]`: the field exists and is a non-empty string or a checked flag. */
  predicate Truthy(form: FormData, name: string) {
    name in form && match form[name]
      case Text(s) => s != ""
      case Flag(b) => b
  }

  /** `validateStep`. */
  function ValidateStep(form: FormData, step: int): (valid: bool)
    ensures step !in {1, 2, 3} ==> valid
    ensures valid ==> forall k :: 0 <= k < |RequiredFields(step)| ==> Truthy(form, RequiredFields(step)[k])
  {
    if step == 1 then Truthy(form, "title") && Truthy(form, "empresaId") && Truthy(form, "eventType")
    else if step == 2 then
      Truthy(form, "date") && Truthy(form, "startTime") && Truthy(form, "endTime") && Truthy(form, "location")
    else if step == 3 then Truthy(form, "responsibleName") && Truthy(form, "responsibleContact")
    else true
  }

  /** The fields each step requires, as the form lays them out. */
  function RequiredFields(step: int): (names: seq<string>)
    ensures step !in {1, 2, 3} <==> names == []
  {
    if step == 1 then ["title", "empresaId", "eventType"]
    else if step == 2 then ["date", "startTime", "endTime", "location"]
    else if step == 3 then ["responsibleName", "responsibleContact"]
    else []
  }

  /** A step is valid exactly when every field it requires is filled in. */
  lemma ValidateStepMeansRequiredFilled(form: FormData, step: int)
    ensures ValidateStep(form, step) <==> forall k :: 0 <= k < |RequiredFields(step)| ==> Truthy(form, RequiredFields(step)[k])
  {
    var names := RequiredFields(step);
    if ValidateStep(form, step) {
      forall k | 0 <= k < |names|
        ensures Truthy(form, names[k])
      {
      }
    } else {
      assert exists k :: 0 <= k < |names| && !Truthy(form, names[k]) by {
        if step == 1 {
          if !Truthy(form, "title") { assert names[0] == "title"; }
          else if !Truthy(form, "empresaId") { assert names[1] == "empresaId"; }
          else { assert names[2] == "eventType"; }
        } else if step == 2 {
          if !Truthy(form, "date") { assert names[0] == "date"; }
          else if !Truthy(form, "startTime") { assert names[1] == "startTime"; }
          else if !Truthy(form, "endTime") { assert names[2] == "endTime"; }
          else { assert names[3] == "location"; }
        } else {
          if !Truthy(form, "responsibleName") { assert names[0] == "responsibleName"; }
          else { assert names[1] == "responsibleContact"; }
        }
      }
    }
  }

  /** Writing a field no step requires (the provider count, say) never changes any step's validity. */
  lemma ValidityIgnoresOtherFields(form: FormData, name: string, v: FieldValue, step: int)
    requires name !in RequiredFields(1) && name !in RequiredFields(2) && name !in RequiredFields(3)
    ensures ValidateStep(form[name := v], step) == ValidateStep(form, step)
  {
  }

  /** The step counter's range. */
  predicate ValidStep(step: int) {
    1 <= step <= TotalSteps
  }

  /** `nextStep`: advance one step from a valid step before the last; otherwise stay. */
  function NextStep(form: FormData, step: int): (r: int)
    ensures ValidStep(step) ==> ValidStep(r)
    ensures r == step || r == step + 1
    ensures r == step + 1 <==> step < TotalSteps && ValidateStep(form, step)
  {
    if step < TotalSteps && ValidateStep(form, step) then step + 1 else step
  }

  /** What `prevStep` does: the new step, and the page it leaves for, if any. */
  datatype Back = Back(step: int, navigateTo: Option<string>)

  /** `prevStep`: go back one step; on the first step stay and leave for the dashboard. */
  function PrevStep(step: int): (r: Back)
    ensures ValidStep(step) ==> ValidStep(r.step)
    ensures step > 1 ==> r == Back(step - 1, None)
    ensures step <= 1 ==> r == Back(step, Some("/dashboard"))
  {
    if step > 1 then Back(step - 1, None) else Back(step, Some("/dashboard"))
  }

  /** What a change event carries: a text value, or a checkbox's checked state. */
  datatype ChangeInput = TextInput(value: string) | CheckboxInput(checked: bool)

  /** `handleChange`: set the named field and no other. */
  function HandleChange(form: FormData, name: string, input: ChangeInput): (r: FormData)
    ensures name in r
    ensures input.CheckboxInput? ==> r[name] == Flag(input.checked)
    ensures input.TextInput? ==> r[name] == Text(input.value)
    ensures r.Keys == form.Keys + {name}
    ensures forall k | k in form && k != name :: r[k] == form[k]
  {
    match input
    case CheckboxInput(b) => form[name := Flag(b)]
    case TextInput(v) => form[name := Text(v)]
  }

  /** The user's actions on the wizard. */
  datatype Action = Next | Prev | Change(name: string, input: ChangeInput)

  /** The state after a sequence of actions; `Prev` on the first step leaves the page, so the run stops. */
  function Run(form: FormData, step: int, actions: seq<Action>): (r: (FormData, int))
    decreases |actions|
  {
    if |actions| == 0 then (form, step)
    else match actions[0]
      case Next => Run(form, NextStep(form, step), actions[1..])
      case Prev =>
        var b := PrevStep(step);
        if b.navigateTo.Some? then (form, b.step) else Run(form, b.step, actions[1..])
      case Change(name, input) => Run(HandleChange(form, name, input), step, actions[1..])
  }

  /** The step stays within 1..3 whatever the user does. */
  lemma {:induction false} RunKeepsStepInRange(form: FormData, step: int, actions: seq<Action>)
    requires ValidStep(step)
    ensures ValidStep(Run(form, step, actions).1)
    decreases |actions|
  {
    if |actions| > 0 {
      match actions[0]
      case Next => RunKeepsStepInRange(form, NextStep(form, step), actions[1..]);
      case Prev =>
        if step > 1 { RunKeepsStepInRange(form, step - 1, actions[1..]); }
      case Change(name, input) => RunKeepsStepInRange(HandleChange(form, name, input), step, actions[1..]);
    }
  }

  /** From a fresh form the first step cannot be left until its fields are filled in. */
  lemma InitialFormBlocksFirstStep()
    ensures NextStep(InitialForm, 1) == 1
  {
    assert InitialForm["title"] == Text("");
  }

  /** The width of the progress bar, in percent. */
  function ProgressWidth(step: int): (w: real)
    ensures step == 1 ==> w == 0.0
    ensures step == TotalSteps ==> w == 100.0
    ensures ValidStep(step) ==> 0.0 <= w <= 100.0
  {
    ((step - 1) as real / (TotalSteps - 1) as real) * 100.0
  }

  /** The bar grows by the same amount with every step. */
  lemma ProgressWidthIsLinear(step: int)
    ensures ProgressWidth(step + 1) - ProgressWidth(step) == 50.0
  {
  }
}

=== FILE: history.dfy ===
/**
  The archive page (`HistoricoEventosPage`): the year options, the status/year/keyword filter,
  the status labels and restoring an archived event.
 */
module History {
  import opened Wrappers
  import opened Seqs
  import opened Strings

  datatype EventStatus = Planejamento | Confirmado | EmAndamento | Concluido | Cancelado | Inativo

  /** The spelling of a status in the data and in the status drop-down. */
  function StatusName(st: EventStatus): string {
    match st
    case Planejamento => "planejamento"
    case Confirmado => "confirmado"
    case EmAndamento => "emAndamento"
    case Concluido => "concluido"
    case Cancelado => "cancelado"
    case Inativo => "inativo"
  }

  /** The status a spelling names, if any. */
  function ParseStatus(name: string): (r: Option<EventStatus>)
    ensures r.Some? ==> StatusName(r.value) == name
  {
    if name == "planejamento" then Some(Planejamento)
    else if name == "confirmado" then Some(Confirmado)
    else if name == "emAndamento" then Some(EmAndamento)
    else if name == "concluido" then Some(Concluido)
    else if name == "cancelado" then Some(Cancelado)
    else if name == "inativo" then Some(Inativo)
    else None
  }

  /** Every status is recognised from its own spelling. */
  lemma ParseStatusName(st: EventStatus)
    ensures ParseStatus(StatusName(st)) == Some(st)
  {
  }

  /** The label shown for each status. */
  function StatusLabel(st: EventStatus): string {
    match st
    case Planejamento => "Planejamento"
    case Confirmado => "Confirmado"
    case EmAndamento => "Em Andamento"
    case Concluido => "Concluído"
    case Cancelado => "Cancelado"
    case Inativo => "Inativo"
  }

  /** `formatarStatus`: the label of a known status; any other string comes back unchanged. */
  function FormatarStatus(status: string): (r: string)
    ensures ParseStatus(status).Some? ==> r == StatusLabel(ParseStatus(status).value)
    ensures ParseStatus(status).None? ==> r == status
  {
    match status
    case "planejamento" => "Planejamento"
    case "confirmado" => "Confirmado"
    case "emAndamento" => "Em Andamento"
    case "concluido" => "Concluído"
    case "cancelado" => "Cancelado"
    case "inativo" => "Inativo"
    case _ => status
  }

  /** No label is itself a status spelling, so formatting twice is formatting once. */
  lemma FormatarStatusIdempotent(status: string)
    ensures FormatarStatus(FormatarStatus(status)) == FormatarStatus(status)
  {
    if ParseStatus(status).Some? {
      var st := ParseStatus(status).value;
      assert ParseStatus(StatusLabel(st)).None?;
    }
  }

  /** An archived event; its date is reduced to the year the filters look at. */
  datatype Evento = Evento(
    id: string,
    title: string,
    empresaId: string,
    year: int,
    startTime: string,
    endTime: string,
    location: string,
    description: string,
    status: EventStatus,
    responsibleName: string,
    responsibleContact: string,
    prestadoresNecessarios: Option<int>,
    arquivado: Option<bool>)

  // ----- Year options -----

  ghost predicate StrictlyDescending(s: seq<int>) {
    forall i, j :: 0 <= i < j < |s| ==> s[i] > s[j]
  }

  /** `y` put into its place in a strictly descending list, unless it is already there. */
  function InsertDescending(y: int, s: seq<int>): (r: seq<int>)
    requires StrictlyDescending(s)
    ensures StrictlyDescending(r)
    ensures forall x :: x in r <==> x in s || x == y
    decreases |s|
  {
    if |s| == 0 then [y]
    else if y > s[0] then
      assert forall x | x in s :: x <= s[0];
      ConsDescending(y, s);
      [y] + s
    else if y == s[0] then s
    else
      var rest := InsertDescending(y, s[1..]);
      assert forall x :: x in s <==> x == s[0] || x in s[1..];
      assert forall x | x in s[1..] :: x < s[0];
      ConsDescending(s[0], rest);
      [s[0]] + rest
  }

  /** A head above every element of a strictly descending tail keeps the list strictly descending. */
  lemma ConsDescending(h: int, t: seq<int>)
    requires StrictlyDescending(t)
    requires forall x | x in t :: x < h
    ensures StrictlyDescending([h] + t)
  {
    var r := [h] + t;
    forall i, j | 0 <= i < j < |r|
      ensures r[i] > r[j]
    {
      assert r[j] == t[j - 1];
      if i > 0 {
        assert r[i] == t[i - 1];
      } else {
        assert t[j - 1] in t;
      }
    }
  }

  /** The distinct years of the events, most recent first. */
  function YearList(eventos: seq<Evento>): (r: seq<int>)
    ensures StrictlyDescending(r)
    ensures forall x :: x in r <==> exists e :: e in eventos && e.year == x
    decreases |eventos|
  {
    if |eventos| == 0 then []
    else
      var rest := YearList(eventos[1..]);
      assert forall e :: e in eventos <==> e == eventos[0] || e in eventos[1..];
      InsertDescending(eventos[0].year, rest)
  }

  /** An option of the year drop-down. */
  datatype YearOption = AllYears | Year(year: int)

  /** The year drop-down: `'todos'`, then each event year once, most recent first. */
  function YearOptions(eventos: seq<Evento>): (r: seq<YearOption>)
    ensures |r| >= 1 && r[0] == AllYears
    ensures forall i :: 1 <= i < |r| ==> r[i].Year?
    ensures forall i, j :: 1 <= i < j < |r| ==> r[i].year > r[j].year
    ensures forall e | e in eventos :: Year(e.year) in r
    ensures forall i :: 1 <= i < |r| ==> exists e :: e in eventos && e.year == r[i].year
  {
    var ys := YearList(eventos);
    var r := YearChoices(ys);
    forall e | e in eventos
      ensures Year(e.year) in r
    {
      assert e.year in ys;
    }
    forall i | 1 <= i < |r|
      ensures exists e :: e in eventos && e.year == r[i].year
    {
      assert ys[i - 1] in ys;
    }
    r
  }

  /** `'todos'` followed by one option per year, in the same order. */
  function YearChoices(ys: seq<int>): (r: seq<YearOption>)
    ensures |r| == |ys| + 1 && r[0] == AllYears
    ensures forall i :: 1 <= i < |r| ==> r[i] == Year(ys[i - 1])
    ensures forall x | x in ys :: Year(x) in r
  {
    var r := [AllYears] + seq(|ys|, i requires 0 <= i < |ys| => Year(ys[i]));
    forall x | x in ys
      ensures Year(x) in r
    {
      var k :| 0 <= k < |ys| && ys[k] == x;
      assert r[k + 1] == Year(x);
    }
    r
  }

  /** A strictly descending list is fixed by its elements: the year list is the only possible one. */
  lemma {:induction false} DescendingIsUnique(a: seq<int>, b: seq<int>)
    requires StrictlyDescending(a) && StrictlyDescending(b)
    requires forall x :: x in a <==> x in b
    ensures a == b
    decreases |a|
  {
    SameElementsBothEmpty(a, b);
    if |a| > 0 {
      assert a[0] in a && b[0] in b;
      HeadIsGreatest(a, b[0]);
      HeadIsGreatest(b, a[0]);
      assert forall x :: x in a[1..] <==> x in b[1..] by {
        forall x
          ensures x in a[1..] <==> x in b[1..]
        {
          assert x in a <==> x == a[0] || x in a[1..];
          assert x in b <==> x == b[0] || x in b[1..];
          if x in a[1..] {
            var i :| 0 <= i < |a[1..]| && a[1..][i] == x;
            assert a[i + 1] < a[0];
          }
          if x in b[1..] {
            var i :| 0 <= i < |b[1..]| && b[1..][i] == x;
            assert b[i + 1] < b[0];
          }
        }
      }
      DescendingIsUnique(a[1..], b[1..]);
      assert a == [a[0]] + a[1..] && b == [b[0]] + b[1..];
    }
  }

  /** Any strictly descending list of exactly the event years is the year list. */
  lemma YearListIsCanonical(eventos: seq<Evento>, ys: seq<int>)
    requires StrictlyDescending(ys)
    requires forall x :: x in ys <==> exists e :: e in eventos && e.year == x
    ensures ys == YearList(eventos)
  {
    DescendingIsUnique(ys, YearList(eventos));
  }

  /** The head of a strictly descending list is its greatest element. */
  lemma HeadIsGreatest(s: seq<int>, x: int)
    requires StrictlyDescending(s)
    requires x in s
    ensures x <= s[0]
  {
  }

  /** Two lists with the same elements are empty together. */
  lemma SameElementsBothEmpty(a: seq<int>, b: seq<int>)
    requires forall x :: x in a <==> x in b
    ensures |a| == 0 <==> |b| == 0
  {
    if |a| > 0 {
      var x := a[0];
      assert x in a;
      assert x in b;
      assert |b| > 0;
    }
    if |b| > 0 {
      var x := b[0];
      assert x in b;
      assert x in a;
      assert |a| > 0;
    }
  }

  // ----- Filtering and restoring -----

  /** The value of the status drop-down that shows every status. */
  const AllStatuses := "todos"

  /** The three filters of `eventosFiltrados`, in the order the page applies them. */
  predicate KeepEvento(e: Evento, filtroStatus: string, filtroAno: YearOption, keyword: string) {
    && (filtroStatus == AllStatuses || StatusName(e.status) == filtroStatus)
    && (filtroAno.AllYears? || e.year == filtroAno.year)
    && (keyword == ""
        || Contains(Lower(e.title), Lower(keyword))
        || Contains(Lower(e.location), Lower(keyword))
        || Contains(Lower(e.description), Lower(keyword))
        || Contains(Lower(e.responsibleName), Lower(keyword)))
  }

  /** `eventosFiltrados`: the events all three filters keep, in order. */
  function FilterEventos(eventos: seq<Evento>, filtroStatus: string, filtroAno: YearOption, keyword: string): (r: seq<Evento>)
    ensures IsSubsequence(r, eventos)
    ensures forall e | e in r :: e in eventos && KeepEvento(e, filtroStatus, filtroAno, keyword)
    ensures forall e | e in eventos && KeepEvento(e, filtroStatus, filtroAno, keyword) :: e in r
    ensures filtroStatus == AllStatuses && filtroAno == AllYears && keyword == "" ==> r == eventos
    ensures forall e :: multiset(r)[e] == if KeepEvento(e, filtroStatus, filtroAno, keyword) then multiset(eventos)[e] else 0
  {
    FilterCountsAll((e: Evento) => KeepEvento(e, filtroStatus, filtroAno, keyword), eventos);
    Filter((e: Evento) => KeepEvento(e, filtroStatus, filtroAno, keyword), eventos)
  }

  /** `restaurarEvento`: once confirmed, clear the archive flag of the events with this id; else change nothing. */
  function RestaurarEvento(eventos: seq<Evento>, eventoId: string, confirmed: bool): (r: seq<Evento>)
    ensures !confirmed ==> r == eventos
    ensures |r| == |eventos|
    ensures forall i :: 0 <= i < |eventos| && eventos[i].id != eventoId ==> r[i] == eventos[i]
    ensures confirmed ==> forall i :: 0 <= i < |eventos| && eventos[i].id == eventoId ==>
              r[i] == eventos[i].(arquivado := Some(false))
  {
    if !confirmed then eventos
    else seq(|eventos|, i requires 0 <= i < |eventos| =>
           if eventos[i].id == eventoId then eventos[i].(arquivado := Some(false)) else eventos[i])
  }

  /** Restoring twice is restoring once. */
  lemma RestaurarIdempotent(eventos: seq<Evento>, eventoId: string)
    ensures RestaurarEvento(RestaurarEvento(eventos, eventoId, true), eventoId, true)
         == RestaurarEvento(eventos, eventoId, true)
  {
  }

  /** The filters ignore the archive flag, so a restored event stays listed on this page. */
  lemma FilterIgnoresArchiveFlag(e: Evento, flag: Option<bool>, filtroStatus: string, filtroAno: YearOption, keyword: string)
    ensures KeepEvento(e.(arquivado := flag), filtroStatus, filtroAno, keyword) == KeepEvento(e, filtroStatus, filtroAno, keyword)
  {
  }
}

=== FILE: people.dfy ===
/**
  The people-management page (`GerenciarPessoasPage`): the provider form's skill and specialty
  lists, saving a provider, and the three-part provider filter.
 */
module People {
  import opened Wrappers
  import opened Seqs
  import opened Strings

  /** A service provider; dates are opaque timestamps supplied by the caller. */
  datatype Prestador = Prestador(
    id: string,
    userId: string,
    skills: seq<string>,
    bio: string,
    available: bool,
    rating: real,
    specialties: seq<string>,
    hourlyRate: real,
    bankInfo: Option<string>,
    createdAt: int,
    updatedAt: int)

  /** The fields of the provider form. */
  datatype PrestadorForm = PrestadorForm(
    userId: string,
    skills: seq<string>,
    bio: string,
    available: bool,
    rating: real,
    specialties: seq<string>,
    hourlyRate: real,
    bankInfo: string)

  /** The open form together with the pending text of its skill and specialty inputs. */
  datatype Modal = Modal(form: PrestadorForm, skill: string, specialty: string)

  /** The form a new provider starts from. */
  const BlankForm := PrestadorForm("", [], "", true, 5.0, [], 100.0, "")

  /** The effect that fills the form on opening: a copy of the edited provider, or the blank form. */
  function OpenForm(m: Modal, toEdit: Option<Prestador>): (r: Modal)
    ensures r.skill == m.skill && r.specialty == m.specialty
    ensures toEdit.None? ==> r.form == BlankForm
    ensures toEdit.Some? ==> r.form.userId == toEdit.value.userId && r.form.bio == toEdit.value.bio
    ensures toEdit.Some? ==> r.form.skills == toEdit.value.skills && r.form.specialties == toEdit.value.specialties
    ensures toEdit.Some? ==> r.form.available == toEdit.value.available && r.form.rating == toEdit.value.rating
    ensures toEdit.Some? ==> r.form.hourlyRate == toEdit.value.hourlyRate
    ensures toEdit.Some? ==> r.form.bankInfo == toEdit.value.bankInfo.GetOr("")
  {
    match toEdit
    case None => m.(form := BlankForm)
    case Some(p) =>
      m.(form := PrestadorForm(p.userId, p.skills, p.bio, p.available, p.rating, p.specialties,
                               p.hourlyRate, p.bankInfo.GetOr("")))
  }

  // ----- Skill and specialty lists -----

  /** A list after an add attempt, and what is left in the input box. */
  datatype Added = Added(items: seq<string>, input: string)

  /**
    The add button of a list: append the trimmed input when it is non-empty and not yet listed,
    and then clear the input; otherwise leave both as they are.
   */
  function AddTrimmed(items: seq<string>, input: string): (r: Added)
    ensures NoDuplicates(items) ==> NoDuplicates(r.items)
    ensures r.items == items || r.items == items + [Trim(input)]
    ensures r.items != items <==> Trim(input) != "" && Trim(input) !in items
    ensures r.items != items ==> r.input == ""
    ensures r.items == items ==> r.input == input
    ensures Trim(input) != "" ==> Trim(input) in r.items
  {
    var v := Trim(input);
    if v != "" && v !in items then
      assert (items + [v])[|items|] == v;
      Added(items + [v], "")
    else Added(items, input)
  }

  /** `addSkill`. */
  function AddSkill(m: Modal): (r: Modal)
    ensures NoDuplicates(m.form.skills) ==> NoDuplicates(r.form.skills)
    ensures r.form.skills == AddTrimmed(m.form.skills, m.skill).items
    ensures r.skill == AddTrimmed(m.form.skills, m.skill).input
    ensures r.form == m.form.(skills := r.form.skills) && r.specialty == m.specialty
    ensures r.skill == "" || r == m
  {
    var a := AddTrimmed(m.form.skills, m.skill);
    m.(form := m.form.(skills := a.items), skill := a.input)
  }

  /** `addSpecialty`. */
  function AddSpecialty(m: Modal): (r: Modal)
    ensures NoDuplicates(m.form.specialties) ==> NoDuplicates(r.form.specialties)
    ensures r.form.specialties == AddTrimmed(m.form.specialties, m.specialty).items
    ensures r.specialty == AddTrimmed(m.form.specialties, m.specialty).input
    ensures r.form == m.form.(specialties := r.form.specialties) && r.skill == m.skill
    ensures r.specialty == "" || r == m
  {
    var a := AddTrimmed(m.form.specialties, m.specialty);
    m.(form := m.form.(specialties := a.items), specialty := a.input)
  }

  /** The remove button of a list: drop every occurrence of the value, keeping the rest in order. */
  function RemoveAll(items: seq<string>, value: string): (r: seq<string>)
    ensures value !in r
    ensures IsSubsequence(r, items)
    ensures forall x | x in items && x != value :: x in r
    ensures forall x | x in r :: x in items
    ensures forall x :: multiset(r)[x] == if x == value then 0 else multiset(items)[x]
  {
    FilterCountsAll((x: string) => x != value, items);
    Filter((x: string) => x != value, items)
  }

  /** `removeSkill`. */
  function RemoveSkill(m: Modal, value: string): (r: Modal)
    ensures value !in r.form.skills
    ensures r.form.skills == RemoveAll(m.form.skills, value)
    ensures r == m.(form := m.form.(skills := r.form.skills))
  {
    m.(form := m.form.(skills := RemoveAll(m.form.skills, value)))
  }

  /** `removeSpecialty`. */
  function RemoveSpecialty(m: Modal, value: string): (r: Modal)
    ensures value !in r.form.specialties
    ensures r.form.specialties == RemoveAll(m.form.specialties, value)
    ensures r == m.(form := m.form.(specialties := r.form.specialties))
  {
    m.(form := m.form.(specialties := RemoveAll(m.form.specialties, value)))
  }

  /** Removing what was just added restores the list. */
  lemma {:induction false} RemoveUndoesAdd(items: seq<string>, input: string)
    requires Trim(input) !in items
    ensures RemoveAll(AddTrimmed(items, input).items, Trim(input)) == items
  {
    var v := Trim(input);
    var p := (x: string) => x != v;
    assert forall i :: 0 <= i < |items| ==> p(items[i]) by {
      forall i | 0 <= i < |items|
        ensures p(items[i])
      {
        assert items[i] in items;
      }
    }
    if v != "" {
      FilterAppendRejected(p, items, v);
    }
  }

  /** Filtering a list with one rejected element appended drops just that element. */
  lemma {:induction false} FilterAppendRejected<T>(p: T -> bool, s: seq<T>, x: T)
    requires forall i :: 0 <= i < |s| ==> p(s[i])
    requires !p(x)
    ensures Filter(p, s + [x]) == s
    decreases |s|
  {
    if |s| == 0 {
      assert [x][1..] == [];
    } else {
      assert (s + [x])[1..] == s[1..] + [x];
      FilterAppendRejected(p, s[1..], x);
    }
  }

  // ----- Saving a provider -----

  /** A `Partial<Prestador>` of the form's fields; `None` is a field left out. */
  datatype PrestadorData = PrestadorData(
    userId: Option<string>,
    skills: Option<seq<string>>,
    bio: Option<string>,
    available: Option<bool>,
    rating: Option<real>,
    specialties: Option<seq<string>>,
    hourlyRate: Option<real>,
    bankInfo: Option<string>)

  /** What the form's submit hands to the page: every field present. */
  function Submitted(f: PrestadorForm): (d: PrestadorData)
    ensures d.userId.Some? && d.skills.Some? && d.bio.Some? && d.available.Some?
    ensures d.rating.Some? && d.specialties.Some? && d.hourlyRate.Some? && d.bankInfo.Some?
  {
    PrestadorData(Some(f.userId), Some(f.skills), Some(f.bio), Some(f.available), Some(f.rating),
                  Some(f.specialties), Some(f.hourlyRate), Some(f.bankInfo))
  }

  /** `{ ...prestador, ...prestadorData, updatedAt: now }`. */
  function MergeData(p: Prestador, d: PrestadorData, now: int): (r: Prestador)
    ensures r.id == p.id && r.createdAt == p.createdAt && r.updatedAt == now
    ensures Patched(d.userId, p.userId, r.userId) && Patched(d.skills, p.skills, r.skills)
    ensures Patched(d.bio, p.bio, r.bio) && Patched(d.available, p.available, r.available)
    ensures Patched(d.rating, p.rating, r.rating) && Patched(d.specialties, p.specialties, r.specialties)
    ensures Patched(d.hourlyRate, p.hourlyRate, r.hourlyRate)
    ensures PatchedOptional(d.bankInfo, p.bankInfo, r.bankInfo)
  {
    p.(userId := d.userId.GetOr(p.userId), skills := d.skills.GetOr(p.skills), bio := d.bio.GetOr(p.bio),
       available := d.available.GetOr(p.available), rating := d.rating.GetOr(p.rating),
       specialties := d.specialties.GetOr(p.specialties), hourlyRate := d.hourlyRate.GetOr(p.hourlyRate),
       bankInfo := if d.bankInfo.Some? then d.bankInfo else p.bankInfo, updatedAt := now)
  }

  /** Saving a submitted form over a provider takes every field from the form. */
  lemma MergeSubmitted(p: Prestador, f: PrestadorForm, now: int)
    ensures var r := MergeData(p, Submitted(f), now);
      && r.id == p.id && r.createdAt == p.createdAt && r.updatedAt == now
      && r.userId == f.userId && r.skills == f.skills && r.bio == f.bio && r.available == f.available
      && r.rating == f.rating && r.specialties == f.specialties && r.hourlyRate == f.hourlyRate
      && r.bankInfo == Some(f.bankInfo)
  {
  }

  /**
    Opening a provider for editing and saving the form unchanged gives the provider back with a
    new update time; a missing bank information comes back as the empty string the form shows.
   */
  lemma SaveUnchangedForm(m: Modal, p: Prestador, now: int)
    ensures MergeData(p, Submitted(OpenForm(m, Some(p)).form), now)
         == p.(updatedAt := now, bankInfo := Some(p.bankInfo.GetOr("")))
  {
    MergeSubmitted(p, OpenForm(m, Some(p)).form, now);
  }

  /**
    The provider created when none is being edited: `available` defaults to true only when
    absent, while `rating` and `hourlyRate` fall back on 5 and 0 whenever they are falsy.
   */
  function NewPrestador(d: PrestadorData, freshId: string, now: int): (r: Prestador)
    ensures r.id == freshId && r.createdAt == now && r.updatedAt == now
    ensures r.userId == d.userId.GetOr("") && r.bio == d.bio.GetOr("")
    ensures r.available == (d.available.None? || d.available.value)
    ensures r.rating == (if d.rating.None? || d.rating.value == 0.0 then 5.0 else d.rating.value)
    ensures r.rating != 0.0
    ensures r.hourlyRate == (if d.hourlyRate.None? then 0.0 else d.hourlyRate.value)
    ensures r.skills == d.skills.GetOr([]) && r.specialties == d.specialties.GetOr([])
    ensures r.bankInfo == d.bankInfo
  {
    Prestador(
      freshId,
      d.userId.GetOr(""),
      d.skills.GetOr([]),
      d.bio.GetOr(""),
      if d.available.Some? then d.available.value else true,
      if d.rating.None? || d.rating.value == 0.0 then 5.0 else d.rating.value,
      d.specialties.GetOr([]),
      if d.hourlyRate.None? || d.hourlyRate.value == 0.0 then 0.0 else d.hourlyRate.value,
      d.bankInfo,
      now,
      now)
  }

  /** `handleSavePrestador`: merge into every provider with the selected id, or append a new one. */
  function SavePrestador(ps: seq<Prestador>, selected: Option<string>, d: PrestadorData, freshId: string, now: int): (r: seq<Prestador>)
    ensures selected.Some? ==> |r| == |ps|
    ensures selected.Some? ==> forall i :: 0 <= i < |ps| && ps[i].id != selected.value ==> r[i] == ps[i]
    ensures selected.Some? ==> forall i :: 0 <= i < |ps| && ps[i].id == selected.value ==> r[i] == MergeData(ps[i], d, now)
    ensures selected.None? ==> r == ps + [NewPrestador(d, freshId, now)]
  {
    match selected
    case Some(id) =>
      seq(|ps|, i requires 0 <= i < |ps| => if ps[i].id == id then MergeData(ps[i], d, now) else ps[i])
    case None => ps + [NewPrestador(d, freshId, now)]
  }

  /** Editing keeps every provider's id where it was. */
  lemma SavePrestadorKeepsIds(ps: seq<Prestador>, id: string, d: PrestadorData, freshId: string, now: int)
    ensures var r := SavePrestador(ps, Some(id), d, freshId, now);
            |r| == |ps| && forall i :: 0 <= i < |r| ==> r[i].id == ps[i].id
  {
  }

  // ----- Filtering providers -----

  /** The names the page shows for users "1" to "4". */
  const UserNames := ["João Silva", "Maria Oliveira", "Carlos Souza", "Ana Pereira"]

  /** The value of a digit in bases up to 36. */
  function DigitValue(c: char): (r: Option<int>)
    ensures r.Some? ==> 0 <= r.value < 36
    ensures IsDigit(c) <==> r.Some? && r.value < 10
  {
    if '0' <= c <= '9' then Some(c as int - '0' as int)
    else if 'a' <= c <= 'z' then Some(c as int - 'a' as int + 10)
    else if 'A' <= c <= 'Z' then Some(c as int - 'A' as int + 10)
    else None
  }

  /** How many leading characters of `s` are digits of `radix`. */
  function DigitRun(s: string, radix: int): (n: nat)
    ensures n <= |s|
    ensures forall k :: 0 <= k < n ==> DigitValue(s[k]).Some? && DigitValue(s[k]).value < radix
    ensures n < |s| ==> DigitValue(s[n]).None? || DigitValue(s[n]).value >= radix
    decreases |s|
  {
    if |s| > 0 && DigitValue(s[0]).Some? && DigitValue(s[0]).value < radix then 1 + DigitRun(s[1..], radix) else 0
  }

  /** The number the digits spell in `radix`, most significant first. */
  function DigitsValue(ds: string, radix: int): int
    requires forall k :: 0 <= k < |ds| ==> DigitValue(ds[k]).Some?
    decreases |ds|
  {
    if |ds| == 0 then 0
    else DigitsValue(ds[..|ds| - 1], radix) * radix + DigitValue(ds[|ds| - 1]).value
  }

  /** The sign in front of the digits, and the text after it. */
  function SplitSign(t: string): (r: (int, string))
    ensures r.0 == 1 || r.0 == -1
    ensures |r.1| <= |t|
  {
    if |t| > 0 && t[0] == '-' then (-1, t[1..])
    else if |t| > 0 && t[0] == '+' then (1, t[1..])
    else (1, t)
  }

  /** The radix the text after the sign selects (16 after `0x` or `0X`), and the digits that follow. */
  function SplitRadix(u: string): (r: (int, string))
    ensures r.0 == 10 || r.0 == 16
  {
    if |u| >= 2 && u[0] == '0' && (u[1] == 'x' || u[1] == 'X') then (16, u[2..]) else (10, u)
  }

  /**
    `parseInt(s)` with no radix: leading whitespace, an optional sign, a `0x` prefix for base 16,
    then the longest run of digits; `None` stands for NaN.
   */
  function ParseInt(s: string): (r: Option<int>)
    ensures AllWhitespace(s) ==> r.None?
    ensures r.Some? ==> exists k :: 0 <= k < |s| && IsDigit(s[k])
  {
    var (sign, u) := SplitSign(TrimStart(s));
    var (radix, v) := SplitRadix(u);
    var n := DigitRun(v, radix);
    if n == 0 then None else Some(sign * DigitsValue(v[..n], radix))
  }

  /** The name looked up for a provider's user: entry `parseInt(userId) - 1`, when it exists. */
  function UserName(userId: string): (r: Option<string>)
    ensures r.Some? <==> ParseInt(userId).Some? && 1 <= ParseInt(userId).value <= |UserNames|
    ensures r.Some? ==> ParseInt(userId).Some? && 1 <= ParseInt(userId).value <= |UserNames|
                        && r.value == UserNames[ParseInt(userId).value - 1]
    ensures r.Some? ==> r.value in UserNames
  {
    match ParseInt(userId)
    case Some(n) => NameAt(n)
    case None => None
  }

  /** Entry `n - 1` of the name table, when there is one. */
  function NameAt(n: int): (r: Option<string>)
    ensures r.Some? <==> 1 <= n <= |UserNames|
    ensures r.Some? ==> r.value == UserNames[n - 1]
  {
    if 1 <= n <= |UserNames| then Some(UserNames[n - 1]) else None
  }

  /** The ids "1" to "4" of the mock users resolve to their names; "0" and "5" resolve to none. */
  lemma UserNameOfKnownIds()
    ensures UserName("1") == Some(UserNames[0]) && UserName("2") == Some(UserNames[1])
    ensures UserName("3") == Some(UserNames[2]) && UserName("4") == Some(UserNames[3])
    ensures UserName("0").None? && UserName("5").None?
  {
    ParseOneDigit('1');
    UserNameParsed("1", 1);
    ParseOneDigit('2');
    UserNameParsed("2", 2);
    ParseOneDigit('3');
    UserNameParsed("3", 3);
    ParseOneDigit('4');
    UserNameParsed("4", 4);
    ParseOneDigit('0');
    UserNameParsed("0", 0);
    ParseOneDigit('5');
    UserNameParsed("5", 5);
  }

  /** An empty user id has no digits and so no name. */
  lemma UserNameOfEmptyId()
    ensures UserName("") == None
  {
    assert TrimStart("") == "";
  }

  /** Once the id parses to `n`, its name is entry `n - 1`. */
  lemma UserNameParsed(userId: string, n: int)
    requires ParseInt(userId) == Some(n)
    ensures UserName(userId) == NameAt(n)
  {
  }

  /** A lone decimal digit parses to its value. */
  lemma ParseOneDigit(c: char)
    requires IsDigit(c)
    ensures ParseInt([c]) == Some(c as int - '0' as int)
  {
    OneDigitNoWhitespace(c);
    OneDigitRun(c);
    OneDigitValue(c);
    assert [c][..1] == [c];
  }

  lemma OneDigitNoWhitespace(c: char)
    requires IsDigit(c)
    ensures TrimStart([c]) == [c]
  {
    assert !IsWhitespace(c);
  }

  lemma OneDigitRun(c: char)
    requires IsDigit(c)
    ensures DigitRun([c], 10) == 1
  {
    assert DigitRun([c][1..], 10) == 0;
  }

  lemma OneDigitValue(c: char)
    requires IsDigit(c)
    ensures DigitsValue([c], 10) == c as int - '0' as int
  {
    assert [c][..0] == [];
  }

  /** Some item, lowered, contains `term`. */
  predicate SomeContains(items: seq<string>, term: string) {
    exists k :: 0 <= k < |items| && Contains(Lower(items[k]), term)
  }

  /** The filter controls: available only, a specialty fragment, a free text. */
  datatype PeopleFilter = PeopleFilter(showAvailableOnly: bool, specialty: string, text: string)

  /** The verdict on one provider; `None` is the `TypeError` of a name lookup that finds nothing. */
  function Keep(p: Prestador, f: PeopleFilter): Option<bool>
  {
    if f.showAvailableOnly && !p.available then Some(false)
    else if f.specialty != "" && !SomeContains(p.specialties, Lower(f.specialty)) then Some(false)
    else if f.text != "" then
      var term := Lower(f.text);
      match UserName(p.userId)
      case None => None
      case Some(name) =>
        Some(Contains(Lower(name), term) || SomeContains(p.skills, term) || Contains(Lower(p.bio), term))
    else Some(true)
  }

  /** What a verdict on one provider means: each of the three tests, and when the lookup fails. */
  lemma KeepMeaning(p: Prestador, f: PeopleFilter)
    ensures Keep(p, f) == Some(true) ==> (f.showAvailableOnly ==> p.available)
    ensures Keep(p, f) == Some(true) && f.specialty != "" ==> SomeContains(p.specialties, Lower(f.specialty))
    ensures Keep(p, f) == Some(true) && f.text != "" ==>
              && UserName(p.userId).Some?
              && (|| Contains(Lower(UserName(p.userId).value), Lower(f.text))
                  || SomeContains(p.skills, Lower(f.text))
                  || Contains(Lower(p.bio), Lower(f.text)))
    ensures Keep(p, f).None? <==>
              && (f.showAvailableOnly ==> p.available)
              && (f.specialty != "" ==> SomeContains(p.specialties, Lower(f.specialty)))
              && f.text != "" && UserName(p.userId).None?
    ensures f.text == "" ==>
              (Keep(p, f) == Some(true) <==> (f.showAvailableOnly ==> p.available)
                                             && (f.specialty != "" ==> SomeContains(p.specialties, Lower(f.specialty))))
  {
  }

  /** The error the name lookup raises for a user id outside "1".."4". */
  const LookupError := "TypeError: Cannot read properties of undefined (reading 'toLowerCase')"

  /** `filteredPrestadores`: the providers the filters keep, in order, unless a name lookup throws. */
  function FilterPrestadores(ps: seq<Prestador>, f: PeopleFilter): (r: Result<seq<Prestador>, string>)
    ensures r.Failure? <==> exists k :: 0 <= k < |ps| && Keep(ps[k], f).None?
    ensures r.Success? ==> IsSubsequence(r.value, ps)
    ensures r.Success? ==> forall p | p in r.value :: p in ps && Keep(p, f) == Some(true)
    ensures r.Success? ==> forall p | p in ps && Keep(p, f) == Some(true) :: p in r.value
    decreases |ps|
  {
    if |ps| == 0 then Success([])
    else
      assert forall p | p in ps :: p == ps[0] || p in ps[1..];
      assert forall k :: 1 <= k < |ps| ==> ps[k] == ps[1..][k - 1];
      match Keep(ps[0], f)
      case None => Failure(LookupError)
      case Some(keep) =>
        match FilterPrestadores(ps[1..], f)
        case Failure(e) => Failure(e)
        case Success(rest) =>
          if keep then
            assert ([ps[0]] + rest)[1..] == rest;
            Success([ps[0]] + rest)
          else Success(rest)
  }

  /** Without a text to search for, no name is looked up, so the filter cannot fail. */
  lemma {:induction false} FilterWithoutTextSucceeds(ps: seq<Prestador>, f: PeopleFilter)
    requires f.text == ""
    ensures FilterPrestadores(ps, f).Success?
  {
    forall k | 0 <= k < |ps|
      ensures Keep(ps[k], f).Some?
    {
      KeepMeaning(ps[k], f);
    }
  }
}

=== FILE: provider_details.dfy ===
/**
  The provider details page: the WhatsApp invitation link built from the provider's phone
  and name, and the two event counts shown in the summary card.
 */
module ProviderDetails {
  import opened Wrappers
  import opened Seqs
  import opened Strings
  import opened UriEncoding

  /** The state of a provider's assignment to an event. */
  datatype AssignmentStatus = Pendente | Confirmado | Recusado

  /** One event a provider is assigned to. */
  datatype EventoPrestador = EventoPrestador(
    id: string,
    eventoId: string,
    prestadorId: string,
    status: AssignmentStatus,
    value: real,
    observations: string)

  /** The phone number with everything but its digits removed, as dialled by the link. */
  function PhoneDigits(phone: string): (r: string)
    ensures forall k :: 0 <= k < |r| ==> IsDigit(r[k])
    ensures IsSubsequence(r, phone)
    ensures forall c | c in phone && IsDigit(c) :: c in r
    ensures forall c :: multiset(r)[c] == if IsDigit(c) then multiset(phone)[c] else 0
    ensures (forall k :: 0 <= k < |phone| ==> IsDigit(phone[k])) ==> r == phone
  {
    FilterCountsAll(IsDigit, phone);
    Filter(IsDigit, phone)
  }

  /** Stripping the non-digits of an already stripped number changes nothing. */
  lemma PhoneDigitsIdempotent(phone: string)
    ensures PhoneDigits(PhoneDigits(phone)) == PhoneDigits(phone)
  {
    FilterIdempotent(IsDigit, phone);
  }

  const WaPrefix: string := "https://wa.me/"
  const TextQuery: string := "?text="
  const Hello: string := "Ol\U{00E1} "
  const Invite: string := ", temos um novo evento para voc\U{00EA} participar!"

  /** The invitation text addressed to the provider by name. */
  function Greeting(name: string): (msg: string)
    ensures Hello <= msg
    ensures |msg| == |Hello| + |name| + |Invite|
    ensures msg[|Hello|..|Hello| + |name|] == name
    ensures msg[|Hello| + |name|..] == Invite
  {
    Hello + name + Invite
  }

  /** The name a greeting is addressed to, when the text is a greeting at all. */
  function GreetingName(msg: string): (r: Option<string>)
    ensures r.Some? ==> Greeting(r.value) == msg
  {
    if |msg| >= |Hello| + |Invite| && Hello <= msg && msg[|msg| - |Invite|..] == Invite then
      var name := msg[|Hello|..|msg| - |Invite|];
      assert msg == Hello + name + Invite;
      Some(name)
    else
      None
  }

  /** The greeting names the provider it was written for. */
  lemma GreetingNameOfGreeting(name: string)
    ensures GreetingName(Greeting(name)) == Some(name)
  {
    var msg := Greeting(name);
    assert msg[..|Hello|] == Hello;
  }

  /** The WhatsApp link the "send message" button opens. */
  function WhatsAppLink(phone: string, name: string): (url: string)
    ensures WaPrefix <= url
    ensures UrlSafe(url[|WaPrefix|..])
  {
    var digits := PhoneDigits(phone);
    var text := EncodeUriComponent(Greeting(name));
    UrlSafeConcat(TextQuery, text);
    UrlSafeConcat(digits, TextQuery + text);
    assert (WaPrefix + (digits + (TextQuery + text)))[|WaPrefix|..] == digits + (TextQuery + text);
    WaPrefix + (digits + (TextQuery + text))
  }

  /** Characters that may stand in a link's path and query without escaping here. */
  predicate UrlSafe(s: string) {
    forall k :: 0 <= k < |s| ==> IsUnreserved(s[k]) || s[k] == '%' || s[k] == '?' || s[k] == '='
  }

  lemma UrlSafeConcat(a: string, b: string)
    requires UrlSafe(a) && UrlSafe(b)
    ensures UrlSafe(a + b)
  {
    assert forall k :: |a| <= k < |a + b| ==> (a + b)[k] == b[k - |a|];
  }

  /** The number dialled and the text prefilled by a WhatsApp link. */
  datatype WhatsAppMessage = WhatsAppMessage(phone: string, text: string)

  /** The length of the run of digits that starts `s`. */
  function LeadingDigits(s: string): (n: nat)
    ensures n <= |s|
    ensures forall k :: 0 <= k < n ==> IsDigit(s[k])
    ensures n < |s| ==> !IsDigit(s[n])
  {
    if |s| == 0 || !IsDigit(s[0]) then 0 else 1 + LeadingDigits(s[1..])
  }

  /** Reads a link back: the number after the host, then the decoded `text` parameter. */
  function ParseWhatsAppLink(url: string): (r: Option<WhatsAppMessage>)
    ensures r.Some? ==> forall k :: 0 <= k < |r.value.phone| ==> IsDigit(r.value.phone[k])
  {
    if !(WaPrefix <= url) then None
    else
      var rest := url[|WaPrefix|..];
      var n := LeadingDigits(rest);
      var query := rest[n..];
      if !(TextQuery <= query) then None
      else
        match DecodeUriComponent(query[|TextQuery|..])
        case None => None
        case Some(text) => Some(WhatsAppMessage(rest[..n], text))
  }

  /** A run of digits followed by a non-digit is read as exactly that run. */
  lemma LeadingDigitsOf(d: string, t: string)
    requires forall k :: 0 <= k < |d| ==> IsDigit(d[k])
    requires |t| > 0 && !IsDigit(t[0])
    ensures LeadingDigits(d + t) == |d|
  {
    assert forall k :: 0 <= k < |d| ==> IsDigit((d + t)[k]);
    assert !IsDigit((d + t)[|d|]);
  }

  /** The link carries the provider's digits and the greeting, both recoverable from it. */
  lemma WhatsAppLinkRoundTrip(phone: string, name: string)
    ensures ParseWhatsAppLink(WhatsAppLink(phone, name))
      == Some(WhatsAppMessage(PhoneDigits(phone), Greeting(name)))
  {
    var digits := PhoneDigits(phone);
    var text := EncodeUriComponent(Greeting(name));
    var url := WhatsAppLink(phone, name);
    assert url == WaPrefix + (digits + (TextQuery + text));
    var rest := url[|WaPrefix|..];
    assert rest == digits + (TextQuery + text);
    LeadingDigitsOf(digits, TextQuery + text);
    assert rest[..|digits|] == digits;
    assert rest[|digits|..] == TextQuery + text;
    assert (TextQuery + text)[|TextQuery|..] == text;
    DecodeEncode(Greeting(name));
  }

  predicate IsConfirmed(e: EventoPrestador) {
    e.status == Confirmado
  }

  /** The "confirmed events" count: at most the total, and equal to it only when every assignment is confirmed. */
  function EventosConfirmados(eventos: seq<EventoPrestador>): (n: nat)
    ensures n <= |eventos|
    ensures n == |eventos| <==> forall i :: 0 <= i < |eventos| ==> IsConfirmed(eventos[i])
    ensures n == 0 <==> forall i :: 0 <= i < |eventos| ==> !IsConfirmed(eventos[i])
  {
    FilterKeepsLength(IsConfirmed, eventos);
    FilterEmpty(IsConfirmed, eventos);
    |Filter(IsConfirmed, eventos)|
  }

  /** The count of a joined list is the sum of the counts of its parts. */
  lemma EventosConfirmadosAdd(a: seq<EventoPrestador>, b: seq<EventoPrestador>)
    ensures EventosConfirmados(a + b) == EventosConfirmados(a) + EventosConfirmados(b)
  {
    FilterConcat(IsConfirmed, a, b);
  }
}

=== FILE: routes.dfy ===
/**
  The route table of the application with its two guards: `ProtectedRoute` sends a visitor
  nobody has signed in as to `/login`, and `AdminRoute` sends everyone but an administrator
  to `/dashboard`. A path resolves to the page rendered there or to the redirect taken.
 */
module Routes {
  import opened Wrappers
  import opened Strings
  import opened Auth

  datatype Page =
    | LoginPage
    | DashboardPage
    | EventoFormPage(editId: Option<string>)
    | EventoDetalhesPage(id: string)
    | TarefasPage
    | PrestadorDetalhesPage(id: string)
    | GerenciarPessoasPage
    | ConfiguracoesPage
    | HistoricoEventosPage

  datatype Outcome = Render(page: Page) | Redirect(to: string)

  const LoginPath: string := "/login"
  const DashboardPath: string := "/dashboard"

  /** A single path segment: not empty and free of slashes. */
  predicate IsSegment(s: string) {
    |s| > 0 && '/' !in s
  }

  /** The length of the segment that starts `s`, up to the next slash. */
  function SegmentLength(s: string): (n: nat)
    ensures n <= |s|
    ensures forall k :: 0 <= k < n ==> s[k] != '/'
    ensures n < |s| ==> s[n] == '/'
  {
    if |s| == 0 || s[0] == '/' then 0 else 1 + SegmentLength(s[1..])
  }

  /** A segment followed by nothing or by a slash is read as exactly that segment. */
  lemma SegmentLengthOf(first: string, rest: string)
    requires '/' !in first
    requires |rest| > 0 ==> rest[0] == '/'
    ensures SegmentLength(first + rest) == |first|
  {
    assert forall k :: 0 <= k < |first| ==> (first + rest)[k] == first[k];
    if |rest| > 0 {
      assert (first + rest)[|first|] == '/';
    }
  }

  /** The segments of a path, with empty segments (repeated or trailing slashes) dropped. */
  function Segments(path: string): (r: seq<string>)
    ensures forall i :: 0 <= i < |r| ==> IsSegment(r[i])
    decreases |path|
  {
    if |path| == 0 then []
    else if path[0] == '/' then Segments(path[1..])
    else
      var n := SegmentLength(path);
      assert forall c | c in path[..n] :: c != '/';
      [path[..n]] + Segments(path[n..])
  }

  /** The absolute path with the given segments. */
  function JoinPath(segments: seq<string>): (path: string)
    ensures |segments| > 0 ==> |path| > 0 && path[0] == '/'
  {
    if |segments| == 0 then "" else "/" + segments[0] + JoinPath(segments[1..])
  }

  /** Splitting a joined path gives back its segments. */
  lemma {:induction false} SegmentsOfJoin(segments: seq<string>)
    requires forall i :: 0 <= i < |segments| ==> IsSegment(segments[i])
    ensures Segments(JoinPath(segments)) == segments
    decreases |segments|
  {
    if |segments| > 0 {
      var first, rest := segments[0], JoinPath(segments[1..]);
      var path := "/" + first + rest;
      assert path[1..] == first + rest;
      SegmentLengthOf(first, rest);
      assert (first + rest)[..|first|] == first;
      assert (first + rest)[|first|..] == rest;
      SegmentsOfJoin(segments[1..]);
    }
  }

  /** `ProtectedRoute`: the page for a signed-in user, the login page for anyone else. */
  function Protected(user: Option<User>, page: Page): (r: Outcome)
    ensures r.Render? <==> user.Some?
    ensures r.Redirect? ==> r.to == LoginPath
    ensures r.Render? ==> r.page == page
  {
    if user.None? then Redirect(LoginPath) else Render(page)
  }

  /** `AdminRoute`: the page for an administrator, the dashboard for anyone else. */
  function AdminOnly(user: Option<User>, page: Page): (r: Outcome)
    ensures r.Render? <==> user.Some? && user.value.role == Admin
    ensures r.Redirect? ==> r.to == DashboardPath
    ensures r.Render? ==> r.page == page
  {
    if user.None? || user.value.role != Admin then Redirect(DashboardPath) else Render(page)
  }

  /** Whether a path segment names the given static segment, ignoring letter case. */
  predicate Names(segment: string, literal: string) {
    |segment| == |literal| && Lower(segment) == literal
  }

  /**
    The route table. Static segments win over `:id` parameters, so `/eventos/novo` is the
    creation form and not the details of an event with id "novo"; `/` and any path no route
    matches go to the dashboard.
   */
  function Resolve(path: string, user: Option<User>): (r: Outcome)
    ensures r.Redirect? ==> r.to == LoginPath || r.to == DashboardPath
    ensures user.None? ==> r == Render(LoginPage) || r.Redirect?
    ensures user.Some? && r.Redirect? ==> r.to == DashboardPath
  {
    Route(Segments(path), user)
  }

  /** The route table over the segments of a path. */
  function Route(s: seq<string>, user: Option<User>): (r: Outcome)
    ensures r.Redirect? ==> r.to == LoginPath || r.to == DashboardPath
    ensures user.None? ==> r == Render(LoginPage) || r.Redirect?
    ensures user.Some? && r.Redirect? ==> r.to == DashboardPath
  {
    if |s| == 1 && Names(s[0], "login") then Render(LoginPage)
    else if |s| == 1 && Names(s[0], "dashboard") then Protected(user, DashboardPage)
    else if |s| == 2 && Names(s[0], "eventos") && Names(s[1], "novo") then Protected(user, EventoFormPage(None))
    else if |s| == 3 && Names(s[0], "eventos") && Names(s[1], "editar") then Protected(user, EventoFormPage(Some(s[2])))
    else if |s| == 2 && Names(s[0], "eventos") then Protected(user, EventoDetalhesPage(s[1]))
    else if |s| == 1 && Names(s[0], "tarefas") then Protected(user, TarefasPage)
    else if |s| == 2 && Names(s[0], "prestadores") then Protected(user, PrestadorDetalhesPage(s[1]))
    else if |s| == 1 && Names(s[0], "gerenciar-pessoas") then Protected(user, GerenciarPessoasPage)
    else if |s| == 1 && Names(s[0], "configuracoes") then AdminOnly(user, ConfiguracoesPage)
    else if |s| == 1 && Names(s[0], "historico-eventos") then Protected(user, HistoricoEventosPage)
    else Redirect(DashboardPath)
  }

  /** The segments of the canonical path of each page. */
  function PageSegments(page: Page): seq<string> {
    match page
    case LoginPage => ["login"]
    case DashboardPage => ["dashboard"]
    case EventoFormPage(None) => ["eventos", "novo"]
    case EventoFormPage(Some(id)) => ["eventos", "editar", id]
    case EventoDetalhesPage(id) => ["eventos", id]
    case TarefasPage => ["tarefas"]
    case PrestadorDetalhesPage(id) => ["prestadores", id]
    case GerenciarPessoasPage => ["gerenciar-pessoas"]
    case ConfiguracoesPage => ["configuracoes"]
    case HistoricoEventosPage => ["historico-eventos"]
  }

  /** Where a page lives: its canonical path. */
  function PathOf(page: Page): (path: string)
    ensures |path| > 0 && path[0] == '/'
  {
    JoinPath(PageSegments(page))
  }

  /** The ids a page's path can carry: one segment, and for event details not the word "novo". */
  predicate Addressable(page: Page) {
    match page
    case EventoFormPage(Some(id)) => IsSegment(id)
    case EventoDetalhesPage(id) => IsSegment(id) && !Names(id, "novo")
    case PrestadorDetalhesPage(id) => IsSegment(id)
    case _ => true
  }

  /** A lower-case segment names itself. */
  lemma NamesItself(literal: string)
    requires forall k :: 0 <= k < |literal| ==> !('A' <= literal[k] <= 'Z')
    ensures Names(literal, literal)
  {
  }

  /** The segments of a page's path are proper segments. */
  lemma PageSegmentsAreSegments(page: Page)
    requires Addressable(page)
    ensures forall i :: 0 <= i < |PageSegments(page)| ==> IsSegment(PageSegments(page)[i])
  {
  }

  /** A page's path splits back into the page's segments. */
  lemma SegmentsOfPathOf(page: Page)
    requires Addressable(page)
    ensures Segments(PathOf(page)) == PageSegments(page)
  {
    PageSegmentsAreSegments(page);
    SegmentsOfJoin(PageSegments(page));
  }

  /** A page that carries an id in its path. */
  predicate HasId(page: Page) {
    page.EventoFormPage? || page.EventoDetalhesPage? || page.PrestadorDetalhesPage?
  }

  /** The guard each route wraps its page in: none for login, the admin guard for settings. */
  function Guarded(page: Page, user: Option<User>): Outcome {
    if page == LoginPage then Render(page)
    else if page == ConfiguracoesPage then AdminOnly(user, page)
    else Protected(user, page)
  }

  /** The route table sends a page's segments to that page behind its guard. */
  lemma RouteOfPage(page: Page, user: Option<User>)
    requires Addressable(page)
    ensures Route(PageSegments(page), user) == Guarded(page, user)
  {
    if HasId(page) {
      RouteOfIdPage(page, user);
    } else {
      RouteOfStaticPage(page, user);
    }
  }

  lemma RouteOfIdPage(page: Page, user: Option<User>)
    requires Addressable(page) && HasId(page)
    ensures Route(PageSegments(page), user) == Guarded(page, user)
  {
    NamesItself("eventos");
    match page
    case EventoFormPage(None) => NamesItself("novo");
    case EventoFormPage(Some(id)) => NamesItself("editar");
    case EventoDetalhesPage(id) =>
    case PrestadorDetalhesPage(id) => NamesItself("prestadores");
  }

  lemma RouteOfStaticPage(page: Page, user: Option<User>)
    requires !HasId(page)
    ensures Route(PageSegments(page), user) == Guarded(page, user)
  {
    match page
    case LoginPage => NamesItself("login");
    case DashboardPage => NamesItself("dashboard");
    case TarefasPage => NamesItself("tarefas");
    case GerenciarPessoasPage => NamesItself("gerenciar-pessoas");
    case ConfiguracoesPage => NamesItself("configuracoes");
    case HistoricoEventosPage => NamesItself("historico-eventos");
  }

  /** Every page is served at its own path, behind its guard. */
  lemma ResolvePathOf(page: Page, user: Option<User>)
    requires Addressable(page)
    ensures Resolve(PathOf(page), user) == Guarded(page, user)
  {
    SegmentsOfPathOf(page);
    RouteOfPage(page, user);
  }

  /** A signed-in user reaches every page at its path, the settings only as an administrator. */
  lemma SignedInReachesPage(page: Page, u: User)
    requires Addressable(page)
    requires page == ConfiguracoesPage ==> u.role == Admin
    ensures Resolve(PathOf(page), Some(u)) == Render(page)
  {
    ResolvePathOf(page, Some(u));
  }

  /** The settings page is for administrators; everyone else is sent to the dashboard. */
  lemma SettingsNeedAdmin(user: Option<User>)
    ensures Resolve(PathOf(ConfiguracoesPage), user)
      == if user.Some? && user.value.role == Admin then Render(ConfiguracoesPage) else Redirect(DashboardPath)
  {
    ResolvePathOf(ConfiguracoesPage, user);
  }

  /** Follows up to `hops` redirects from `path`. */
  function Follow(path: string, user: Option<User>, hops: nat): Outcome
    decreases hops
  {
    match Resolve(path, user)
    case Render(page) => Render(page)
    case Redirect(to) => if hops == 0 then Redirect(to) else Follow(to, user, hops - 1)
  }

  /** The two redirect targets are the paths of their pages. */
  lemma RedirectTargets()
    ensures LoginPath == PathOf(LoginPage)
    ensures DashboardPath == PathOf(DashboardPage)
  {
  }

  /** A visitor nobody has signed in as ends up on the login page, whatever the path. */
  lemma AnonymousLandsOnLogin(path: string)
    ensures Follow(path, None, 2) == Render(LoginPage)
  {
    RedirectTargets();
    ResolvePathOf(LoginPage, None);
    ResolvePathOf(DashboardPage, None);
  }

  /** A signed-in user is never sent to the login page and settles after at most one redirect. */
  lemma SignedInSettles(path: string, u: User)
    ensures Resolve(path, Some(u)) != Redirect(LoginPath)
    ensures Follow(path, Some(u), 1).Render?
  {
    RedirectTargets();
    ResolvePathOf(DashboardPage, Some(u));
    var first := Resolve(path, Some(u));
    if first.Redirect? {
      assert first.to == DashboardPath;
      assert Follow(path, Some(u), 1) == Follow(DashboardPath, Some(u), 0);
    }
  }

  /** The root path goes to the dashboard, signed in or not. */
  lemma RootGoesToDashboard(user: Option<User>)
    ensures Resolve("/", user) == Redirect(DashboardPath)
  {
    assert Segments("/") == Segments("") == [];
  }

  /** The position of the id segment in a page's path, for the pages that carry one. */
  predicate IsIdPosition(page: Page, k: int) {
    match page
    case EventoFormPage(Some(_)) => k == 2
    case EventoDetalhesPage(_) => k == 1
    case PrestadorDetalhesPage(_) => k == 1
    case _ => false
  }

  /**
    Whether segments `s` fit the path pattern of `page`: as many segments as its path, the
    id segment equal to the page's id and every other segment naming the static segment there.
   */
  predicate Fits(s: seq<string>, page: Page) {
    |s| == |PageSegments(page)|
    && forall k :: 0 <= k < |s| ==>
         if IsIdPosition(page, k) then s[k] == PageSegments(page)[k] else Names(s[k], PageSegments(page)[k])
  }

  /** A page's own segments fit its pattern. */
  lemma FitsOwnSegments(page: Page)
    ensures Fits(PageSegments(page), page)
  {
    match page
    case LoginPage => NamesItself("login");
    case DashboardPage => NamesItself("dashboard");
    case EventoFormPage(None) => NamesItself("eventos"); NamesItself("novo");
    case EventoFormPage(Some(_)) => NamesItself("eventos"); NamesItself("editar");
    case EventoDetalhesPage(_) => NamesItself("eventos");
    case TarefasPage => NamesItself("tarefas");
    case PrestadorDetalhesPage(_) => NamesItself("prestadores");
    case GerenciarPessoasPage => NamesItself("gerenciar-pessoas");
    case ConfiguracoesPage => NamesItself("configuracoes");
    case HistoricoEventosPage => NamesItself("historico-eventos");
  }

  /** Segments that fit no page's pattern go to the dashboard, signed in or not. */
  lemma UnmatchedRoute(s: seq<string>, user: Option<User>)
    requires forall i :: 0 <= i < |s| ==> IsSegment(s[i])
    requires forall page | Addressable(page) :: !Fits(s, page)
    ensures Route(s, user) == Redirect(DashboardPath)
  {
    if |s| == 1 {
      assert !Fits(s, LoginPage) && !Fits(s, DashboardPage) && !Fits(s, TarefasPage);
      assert !Fits(s, GerenciarPessoasPage) && !Fits(s, ConfiguracoesPage) && !Fits(s, HistoricoEventosPage);
    } else if |s| == 2 {
      assert !Fits(s, EventoFormPage(None)) && !Fits(s, PrestadorDetalhesPage(s[1]));
      if !Names(s[1], "novo") {
        assert !Fits(s, EventoDetalhesPage(s[1]));
      }
    } else if |s| == 3 {
      assert !Fits(s, EventoFormPage(Some(s[2])));
    }
  }

  /**
    Any path whose segments fit no page (`/foo`, `/foo/bar`, `/tarefas/x`,
    `/eventos/editar/1/x`) redirects to the dashboard, signed in or not.
   */
  lemma UnknownGoesToDashboard(path: string, user: Option<User>)
    requires forall page | Addressable(page) :: !Fits(Segments(path), page)
    ensures Resolve(path, user) == Redirect(DashboardPath)
  {
    UnmatchedRoute(Segments(path), user);
  }

  /**
    The dashboard's event buttons as written: `criarNovoEvento` goes to `/evento/novo` and
    `verDetalhesEvento` to `/evento/<id>`, under the singular `/evento` that no route serves.
   */
  function DashboardEventLinkAsWritten(id: string): (path: string)
    ensures Segments(path) == ["evento", id] <== IsSegment(id)
  {
    var path := "/evento/" + id;
    if IsSegment(id) then
      assert JoinPath([id]) == "/" + id;
      assert path == JoinPath(["evento", id]);
      SegmentsOfJoin(["evento", id]);
      path
    else path
  }

  /**
    The buttons' intended targets, under the `/eventos` routes: the corrected form of
    `DashboardEventLinkAsWritten`, which differs from it only in the path prefix.
   */
  function DashboardEventLink(id: string): (path: string)
    ensures Segments(path) == ["eventos", id] <== IsSegment(id)
  {
    var path := "/eventos/" + id;
    if IsSegment(id) then
      assert JoinPath([id]) == "/" + id;
      assert path == JoinPath(["eventos", id]);
      SegmentsOfJoin(["eventos", id]);
      path
    else path
  }

  /** As written, both buttons send a signed-in user back to the dashboard, "novo" included. */
  lemma DashboardEventLinkAsWrittenMisses(id: string, u: User)
    requires IsSegment(id)
    ensures Resolve(DashboardEventLinkAsWritten(id), Some(u)) == Redirect(DashboardPath)
  {
    var s := ["evento", id];
    forall page | Addressable(page)
      ensures !Fits(s, page)
    {
      if |PageSegments(page)| == 2 {
        assert !Names(s[0], PageSegments(page)[0]);
      }
    }
    UnmatchedRoute(s, Some(u));
  }

  /** Under `/eventos`, "novo" opens the creation form and any other id that event's details. */
  lemma DashboardEventLinkServes(id: string, u: User)
    requires IsSegment(id)
    ensures Resolve(DashboardEventLink(id), Some(u))
      == Render(if Names(id, "novo") then EventoFormPage(None) else EventoDetalhesPage(id))
  {
    NamesItself("eventos");
  }
}

=== FILE: seqs.dfy ===
/** Order-preserving filtering, the shape of every `Array.prototype.filter` in the pages. */
module Seqs {

  /** `a` is `b` with some elements dropped and the rest kept in their original order. */
  ghost predicate IsSubsequence<T>(a: seq<T>, b: seq<T>)
    decreases |b|
  {
    if |a| == 0 then true
    else if |b| == 0 then false
    else (a[0] == b[0] && IsSubsequence(a[1..], b[1..])) || IsSubsequence(a, b[1..])
  }

  /** Every element of the sequence occurs once. */
  ghost predicate NoDuplicates<T>(s: seq<T>) {
    forall i, j :: 0 <= i < j < |s| ==> s[i] != s[j]
  }

  /** `s.filter(p)`: the elements of `s` that satisfy `p`, in their original order. */
  function Filter<T>(p: T -> bool, s: seq<T>): (r: seq<T>)
    ensures IsSubsequence(r, s)
    ensures forall x | x in r :: x in s && p(x)
    ensures forall x | x in s && p(x) :: x in r
    ensures |r| <= |s|
    ensures (forall i :: 0 <= i < |s| ==> p(s[i])) ==> r == s
  {
    if |s| == 0 then []
    else
      var rest := Filter(p, s[1..]);
      assert forall x | x in s :: x == s[0] || x in s[1..];
      if p(s[0]) then
        assert ([s[0]] + rest)[1..] == rest;
        [s[0]] + rest
      else
        rest
  }

  /** Filtering keeps exactly the occurrences that satisfy the predicate. */
  lemma {:induction false} FilterCounts<T>(p: T -> bool, s: seq<T>, x: T)
    ensures multiset(Filter(p, s))[x] == if p(x) then multiset(s)[x] else 0
    decreases |s|
  {
    if |s| > 0 {
      assert s == [s[0]] + s[1..];
      FilterCounts(p, s[1..], x);
    }
  }

  /** Filtering keeps every occurrence of each element that satisfies the predicate, and no other. */
  lemma FilterCountsAll<T>(p: T -> bool, s: seq<T>)
    ensures forall x :: multiset(Filter(p, s))[x] == if p(x) then multiset(s)[x] else 0
  {
    forall x
      ensures multiset(Filter(p, s))[x] == if p(x) then multiset(s)[x] else 0
    {
      FilterCounts(p, s, x);
    }
  }

  /** Filtering drops nothing exactly when every element satisfies the predicate. */
  lemma {:induction false} FilterKeepsLength<T>(p: T -> bool, s: seq<T>)
    ensures |Filter(p, s)| == |s| <==> forall i :: 0 <= i < |s| ==> p(s[i])
    decreases |s|
  {
    if |s| > 0 {
      FilterKeepsLength(p, s[1..]);
      assert forall i :: 1 <= i < |s| ==> s[i] == s[1..][i - 1];
    }
  }

  /** Filtering a second time with the same predicate changes nothing. */
  lemma {:induction false} FilterIdempotent<T>(p: T -> bool, s: seq<T>)
    ensures Filter(p, Filter(p, s)) == Filter(p, s)
  {
    var r := Filter(p, s);
    assert forall i :: 0 <= i < |r| ==> p(r[i]) by {
      forall i | 0 <= i < |r|
        ensures p(r[i])
      {
        assert r[i] in r;
      }
    }
  }

  /** A sequence without duplicates stays without duplicates when filtered. */
  lemma {:induction false} FilterKeepsNoDuplicates<T>(p: T -> bool, s: seq<T>)
    requires NoDuplicates(s)
    ensures NoDuplicates(Filter(p, s))
  {
    var r := Filter(p, s);
    forall x | x in r
      ensures multiset(r)[x] == 1
    {
      CountInNoDuplicates(s, x);
      FilterCounts(p, s, x);
    }
    forall i, j | 0 <= i < j < |r|
      ensures r[i] != r[j]
    {
      if r[i] == r[j] {
        TwoPositionsCountTwice(r, i, j);
        assert false;
      }
    }
  }

  /** In a sequence without duplicates each member occurs exactly once. */
  lemma {:induction false} CountInNoDuplicates<T>(s: seq<T>, x: T)
    requires NoDuplicates(s)
    requires x in s
    ensures multiset(s)[x] == 1
    decreases |s|
  {
    assert s == [s[0]] + s[1..];
    var tail := s[1..];
    assert NoDuplicates(tail) by {
      forall i, j | 0 <= i < j < |tail|
        ensures tail[i] != tail[j]
      {
        assert tail[i] == s[i + 1] && tail[j] == s[j + 1];
      }
    }
    if s[0] == x {
      assert x !in tail by {
        forall k | 0 <= k < |tail|
          ensures tail[k] != x
        {
          assert tail[k] == s[k + 1];
        }
      }
    } else {
      CountInNoDuplicates(tail, x);
    }
  }

  /** Two equal elements at distinct positions count twice. */
  lemma {:induction false} TwoPositionsCountTwice<T>(s: seq<T>, i: int, j: int)
    requires 0 <= i < j < |s| && s[i] == s[j]
    ensures multiset(s)[s[i]] >= 2
  {
    assert s == s[..i] + [s[i]] + s[i + 1..j] + [s[j]] + s[j + 1..];
  }

  /** Filtering a concatenation filters each part. */
  lemma {:induction false} FilterConcat<T>(p: T -> bool, a: seq<T>, b: seq<T>)
    ensures Filter(p, a + b) == Filter(p, a) + Filter(p, b)
    decreases |a|
  {
    if |a| == 0 {
      assert a + b == b;
    } else {
      assert (a + b)[1..] == a[1..] + b;
      FilterConcat(p, a[1..], b);
    }
  }

  /** The filter comes out empty exactly when no element satisfies the predicate. */
  lemma FilterEmpty<T>(p: T -> bool, s: seq<T>)
    ensures |Filter(p, s)| == 0 <==> forall i :: 0 <= i < |s| ==> !p(s[i])
  {
    var r := Filter(p, s);
    if |r| > 0 {
      assert r[0] in r;
    }
    forall i | 0 <= i < |s| && p(s[i])
      ensures |r| > 0
    {
      assert s[i] in s;
    }
  }
}

=== FILE: strings.dfy ===
/** The JavaScript string operations the pages rely on: `trim`, `toLowerCase`, `includes`. */
module Strings {

  /** ECMAScript WhiteSpace and LineTerminator code points, the set `String.prototype.trim` strips. */
  predicate IsWhitespace(c: char) {
    || c == '\t' || c == '\n' || c == '\U{000B}' || c == '\U{000C}' || c == '\r' || c == ' '
    || c == '\U{00A0}' || c == '\U{1680}' || ('\U{2000}' <= c <= '\U{200A}')
    || c == '\U{2028}' || c == '\U{2029}' || c == '\U{202F}' || c == '\U{205F}'
    || c == '\U{3000}' || c == '\U{FEFF}'
  }

  /** Every character of `s` is whitespace (vacuously true of ""). */
  predicate AllWhitespace(s: string) {
    forall k :: 0 <= k < |s| ==> IsWhitespace(s[k])
  }

  /** `s` with its leading whitespace removed. */
  function TrimStart(s: string): (r: string)
    ensures |r| <= |s| && r == s[|s| - |r|..]
    ensures AllWhitespace(s[..|s| - |r|])
    ensures |r| > 0 ==> !IsWhitespace(r[0])
    decreases |s|
  {
    if |s| > 0 && IsWhitespace(s[0]) then TrimStart(s[1..]) else s
  }

  /** `s` with its trailing whitespace removed. */
  function TrimEnd(s: string): (r: string)
    ensures |r| <= |s| && r == s[..|r|]
    ensures AllWhitespace(s[|r|..])
    ensures |r| > 0 ==> !IsWhitespace(r[|r| - 1])
    decreases |s|
  {
    if |s| > 0 && IsWhitespace(s[|s| - 1]) then TrimEnd(s[..|s| - 1]) else s
  }

  /**
    `s.trim()`: `s` with its leading and trailing whitespace cut off, leaving a slice that
    neither starts nor ends with whitespace.
   */
  function Trim(s: string): (r: string)
    ensures exists i, j :: 0 <= i <= j <= |s| && r == s[i..j] && AllWhitespace(s[..i]) && AllWhitespace(s[j..])
    ensures |r| > 0 ==> !IsWhitespace(r[0]) && !IsWhitespace(r[|r| - 1])
    ensures r == "" <==> AllWhitespace(s)
  {
    var t := TrimStart(s);
    var r := TrimEnd(t);
    TrimSlices(s, t, r);
    r
  }

  /** What is left after trimming occurs in the original string. */
  lemma TrimIsContained(s: string)
    ensures Contains(s, Trim(s))
  {
    var t := TrimStart(s);
    var r := TrimEnd(t);
    TrimSlices(s, t, r);
    assert Trim(s) == r;
    var i, j := |s| - |t|, |s| - |t| + |r|;
    SliceIsContained(s, i, j);
    assert s[i..j] == r;
  }

  /** The two trimming passes leave a slice of `s`, empty only when `s` is all whitespace. */
  lemma TrimSlices(s: string, t: string, r: string)
    requires |t| <= |s| && t == s[|s| - |t|..] && AllWhitespace(s[..|s| - |t|])
    requires |r| <= |t| && r == t[..|r|] && AllWhitespace(t[|r|..])
    requires |r| > 0 ==> !IsWhitespace(r[0])
    ensures r == s[|s| - |t|..|s| - |t| + |r|]
    ensures AllWhitespace(s[|s| - |t| + |r|..])
    ensures r == "" <==> AllWhitespace(s)
  {
    var a := |s| - |t|;
    assert r == s[a..a + |r|];
    assert s[a + |r|..] == t[|r|..];
    if r == "" {
      var head := s[..a];
      assert t[|r|..] == t;
      assert AllWhitespace(head) && AllWhitespace(t);
      assert s == head + t;
      forall k | 0 <= k < |s|
        ensures IsWhitespace(s[k])
      {
        if k < a {
          assert s[k] == head[k];
        } else {
          assert s[k] == t[k - a];
        }
      }
    } else {
      assert r[0] == s[a];
    }
  }

  /** Trimming an already trimmed string changes nothing. */
  lemma TrimIdempotent(s: string)
    ensures Trim(Trim(s)) == Trim(s)
  {
    var r := Trim(s);
    if |r| > 0 {
      assert TrimStart(r) == r;
      assert TrimEnd(r) == r;
    }
  }

  /** The lower-case form of an ASCII letter; any other character is returned unchanged. */
  function LowerChar(c: char): (r: char)
    ensures 'A' <= c <= 'Z' ==> 'a' <= r <= 'z' && r as int - c as int == 32
    ensures !('A' <= c <= 'Z') ==> r == c
  {
    if 'A' <= c <= 'Z' then (c as int + 32) as char else c
  }

  /** `s.toLowerCase()`, restricted to ASCII letters. */
  function Lower(s: string): (r: string)
    ensures |r| == |s|
    ensures forall k :: 0 <= k < |s| ==> r[k] == LowerChar(s[k])
    ensures forall k :: 0 <= k < |r| ==> !('A' <= r[k] <= 'Z')
  {
    seq(|s|, k requires 0 <= k < |s| => LowerChar(s[k]))
  }

  /** Lowering twice is lowering once. */
  lemma LowerIdempotent(s: string)
    ensures Lower(Lower(s)) == Lower(s)
  {
  }

  /** Lowering turns no character into a blank. */
  lemma LowerKeepsBlanksOut(s: string)
    requires ' ' !in s
    ensures ' ' !in Lower(s)
  {
    forall k | 0 <= k < |s|
      ensures Lower(s)[k] != ' '
    {
      assert s[k] in s;
    }
  }

  /** `s.includes(sub)`: `sub` occurs in `s` at some offset. */
  predicate Contains(s: string, sub: string)
    decreases |s|
  {
    sub <= s || (|s| > 0 && Contains(s[1..], sub))
  }

  /** A one-character string is contained exactly where that character occurs. */
  lemma {:induction false} ContainsChar(s: string, c: char)
    ensures Contains(s, [c]) <==> c in s
    decreases |s|
  {
    if |s| > 0 {
      ContainsChar(s[1..], c);
      assert c in s <==> s[0] == c || c in s[1..];
      assert [c] <= s <==> s[0] == c;
    }
  }

  /** Every slice of `s` is contained in `s`. */
  lemma {:induction false} SliceIsContained(s: string, i: int, j: int)
    requires 0 <= i <= j <= |s|
    ensures Contains(s, s[i..j])
    decreases i
  {
    if i == 0 {
      assert s[..j] <= s;
    } else {
      SliceIsContained(s[1..], i - 1, j - 1);
      assert s[1..][i - 1..j - 1] == s[i..j];
    }
  }

  /** An ASCII decimal digit, the class `[0-9]` that `\d` denotes in a regular expression. */
  predicate IsDigit(c: char) {
    '0' <= c <= '9'
  }
}

=== FILE: task_board.dfy ===
/**
  The kanban board of the task page (`TarefasPage`): the swipe gesture of a task card, saving a
  task from the form, moving a task by drag-and-drop, and the search and priority filters.
 */
module TaskBoard {
  import opened Wrappers
  import opened Seqs
  import opened Strings

  datatype TaskStatus = Backlog | Todo | Doing | Done | Archived

  datatype Priority = Low | Medium | High

  /** A task; dates are opaque timestamps supplied by the caller. */
  datatype Task = Task(
    id: string,
    title: string,
    description: Option<string>,
    status: TaskStatus,
    dueDate: Option<int>,
    priority: Priority,
    assigneeId: Option<string>,
    eventoId: Option<string>,
    createdBy: string,
    createdAt: int,
    updatedAt: int)

  /** No two tasks share an id. */
  ghost predicate UniqueIds(tasks: seq<Task>) {
    forall i, j :: 0 <= i < j < |tasks| ==> tasks[i].id != tasks[j].id
  }

  function Abs(x: int): nat {
    if x < 0 then -x else x
  }

  // ----- Swipe gesture of a task card -----

  /** How far, in pixels, a card may be dragged sideways. */
  const MaxSwipe := 100

  /** The least horizontal travel, in pixels, that counts as a swipe. */
  const SwipeThreshold := 50

  /** The columns a swipe steps through, left to right; `Archived` is not among them. */
  const StatusOrder: seq<TaskStatus> := [Backlog, Todo, Doing, Done]

  /** `statusOrder.indexOf(status)`: the column position, or -1 for a status without a column. */
  function IndexOfStatus(s: TaskStatus): (i: int)
    ensures -1 <= i < |StatusOrder|
    ensures i >= 0 ==> StatusOrder[i] == s
    ensures i == -1 <==> s !in StatusOrder
  {
    match s
    case Backlog => 0
    case Todo => 1
    case Doing => 2
    case Done => 3
    case Archived => -1
  }

  /** `Math.max(Math.min(distance, maxSwipe), -maxSwipe)`. */
  function Clamp(distance: int): (r: int)
    ensures -MaxSwipe <= r <= MaxSwipe
    ensures -MaxSwipe <= distance <= MaxSwipe ==> r == distance
    ensures distance > MaxSwipe ==> r == MaxSwipe
    ensures distance < -MaxSwipe ==> r == -MaxSwipe
    ensures r == 0 <==> distance == 0
    ensures r > 0 <==> distance > 0
  {
    if distance > MaxSwipe then MaxSwipe
    else if distance < -MaxSwipe then -MaxSwipe
    else distance
  }

  /** The clamped offset is the point of the allowed range nearest to the raw one. */
  lemma ClampIsNearest(distance: int, y: int)
    requires -MaxSwipe <= y <= MaxSwipe
    ensures Abs(Clamp(distance) - distance) <= Abs(y - distance)
  {
  }

  /** The card's touch state: where the touch began, the clamped offset, whether the hint shows. */
  datatype SwipeState = SwipeState(touchStartX: int, swipeDistance: int, showIndicator: bool)

  /** The state of a card no finger is on. */
  const SwipeIdle := SwipeState(0, 0, false)

  /** A state whose offset lies in the allowed range. */
  predicate ValidSwipe(st: SwipeState) {
    -MaxSwipe <= st.swipeDistance <= MaxSwipe
  }

  /** `handleTouchStart`: remember where the touch began and show the hint. */
  function TouchStart(st: SwipeState, clientX: int): (r: SwipeState)
    ensures r.touchStartX == clientX && r.showIndicator
    ensures r.swipeDistance == st.swipeDistance
  {
    st.(touchStartX := clientX, showIndicator := true)
  }

  /**
    `handleTouchMove`: the offset becomes the clamped travel since the touch began. A touch that
    began at x = 0 is ignored, because 0 is falsy.
   */
  function TouchMove(st: SwipeState, currentX: int): (r: SwipeState)
    ensures ValidSwipe(st) ==> ValidSwipe(r)
    ensures st.touchStartX == 0 ==> r == st
    ensures r.touchStartX == st.touchStartX && r.showIndicator == st.showIndicator
    ensures st.touchStartX != 0 && Abs(currentX - st.touchStartX) <= MaxSwipe ==>
              r.swipeDistance == currentX - st.touchStartX
    ensures st.touchStartX != 0 && currentX - st.touchStartX > MaxSwipe ==> r.swipeDistance == MaxSwipe
    ensures st.touchStartX != 0 && currentX - st.touchStartX < -MaxSwipe ==> r.swipeDistance == -MaxSwipe
  {
    if st.touchStartX == 0 then st
    else st.(swipeDistance := Clamp(currentX - st.touchStartX))
  }

  /**
    The status a released swipe moves a task to, or `None` when it emits no status change: a
    positive offset steps one column left, a negative one steps one column right.
   */
  function SwipeTarget(status: TaskStatus, distance: int): (r: Option<TaskStatus>)
    ensures Abs(distance) < SwipeThreshold ==> r == None
    ensures r.Some? ==> r.value != status && r.value != Archived
    ensures r.Some? && status != Archived ==>
              IndexOfStatus(r.value) == IndexOfStatus(status) + (if distance > 0 then -1 else 1)
    ensures status == Archived ==>
              (r.Some? <==> Abs(distance) >= SwipeThreshold) && (r.Some? ==> r.value == Backlog)
    ensures status != Archived && Abs(distance) >= SwipeThreshold ==>
              (r.None? <==> (distance > 0 && status == Backlog) || (distance < 0 && status == Done))
  {
    var current := IndexOfStatus(status);
    if Abs(distance) >= SwipeThreshold then
      var next := if distance > 0 then (if current - 1 > 0 then current - 1 else 0)
                  else (if current + 1 < |StatusOrder| - 1 then current + 1 else |StatusOrder| - 1);
      if next != current then Some(StatusOrder[next]) else None
    else
      None
  }

  /** The outcome of releasing a card: the reset touch state and the status change to announce. */
  datatype SwipeEnd = SwipeEnd(state: SwipeState, moveTo: Option<TaskStatus>)

  /** `handleTouchEnd`: decide the status change, then reset the gesture. */
  function TouchEnd(task: Task, st: SwipeState): (r: SwipeEnd)
    ensures r.state == SwipeIdle
    ensures r.moveTo.Some? ==> Abs(st.swipeDistance) >= SwipeThreshold && r.moveTo.value != task.status
    ensures r.moveTo == SwipeTarget(task.status, st.swipeDistance)
  {
    SwipeEnd(SwipeIdle, SwipeTarget(task.status, st.swipeDistance))
  }

  /** A swipe that moved a task within the columns is undone by a swipe the other way. */
  lemma SwipeBack(status: TaskStatus, distance: int)
    requires status != Archived
    requires SwipeTarget(status, distance).Some?
    ensures SwipeTarget(SwipeTarget(status, distance).value, -distance) == Some(status)
  {
  }

  // ----- Saving a task from the form -----

  /** The form's fields; `None` is a field the form leaves out. */
  datatype TaskFormData = TaskFormData(
    title: Option<string>,
    description: Option<string>,
    status: Option<TaskStatus>,
    priority: Option<Priority>,
    dueDate: Option<int>,
    assigneeId: Option<string>,
    eventoId: Option<string>)

  /** `{ ...task, ...taskData, updatedAt: now }`. */
  function MergeForm(t: Task, d: TaskFormData, now: int): (r: Task)
    ensures r.id == t.id && r.createdBy == t.createdBy && r.createdAt == t.createdAt
    ensures r.updatedAt == now
    ensures Patched(d.title, t.title, r.title) && Patched(d.status, t.status, r.status)
    ensures Patched(d.priority, t.priority, r.priority)
    ensures PatchedOptional(d.description, t.description, r.description)
    ensures PatchedOptional(d.dueDate, t.dueDate, r.dueDate)
    ensures PatchedOptional(d.assigneeId, t.assigneeId, r.assigneeId)
    ensures PatchedOptional(d.eventoId, t.eventoId, r.eventoId)
  {
    t.(title := d.title.GetOr(t.title),
       description := if d.description.Some? then d.description else t.description,
       status := d.status.GetOr(t.status),
       dueDate := if d.dueDate.Some? then d.dueDate else t.dueDate,
       priority := d.priority.GetOr(t.priority),
       assigneeId := if d.assigneeId.Some? then d.assigneeId else t.assigneeId,
       eventoId := if d.eventoId.Some? then d.eventoId else t.eventoId,
       updatedAt := now)
  }

  /** The task created from the form when none is being edited. */
  function NewTask(d: TaskFormData, freshId: string, now: int): (r: Task)
    ensures r.id == freshId && r.createdBy == "1" && r.createdAt == now && r.updatedAt == now
    ensures Patched(d.status, Todo, r.status) && Patched(d.priority, Medium, r.priority)
    ensures Patched(d.title, "", r.title)
    ensures r.description == d.description && r.dueDate == d.dueDate
    ensures r.assigneeId == d.assigneeId && r.eventoId == d.eventoId
  {
    Task(freshId, d.title.GetOr(""), d.description, d.status.GetOr(Todo), d.dueDate,
         d.priority.GetOr(Medium), d.assigneeId, d.eventoId, "1", now, now)
  }

  /**
    `handleSaveTask`: with a selected task, merge the form into every task with its id; without,
    append a new task with id `freshId`.
   */
  function SaveTask(tasks: seq<Task>, selected: Option<string>, d: TaskFormData, freshId: string, now: int): (r: seq<Task>)
    ensures selected.Some? ==> |r| == |tasks|
    ensures selected.Some? ==> forall i :: 0 <= i < |tasks| && tasks[i].id != selected.value ==> r[i] == tasks[i]
    ensures selected.Some? ==> forall i :: 0 <= i < |tasks| && tasks[i].id == selected.value ==> r[i] == MergeForm(tasks[i], d, now)
    ensures selected.None? ==> |r| == |tasks| + 1 && r[..|tasks|] == tasks
    ensures selected.None? ==> r[|tasks|] == NewTask(d, freshId, now)
  {
    match selected
    case Some(id) =>
      seq(|tasks|, i requires 0 <= i < |tasks| => if tasks[i].id == id then MergeForm(tasks[i], d, now) else tasks[i])
    case None =>
      tasks + [NewTask(d, freshId, now)]
  }

  /** Editing keeps every id where it was. */
  lemma SaveTaskKeepsIds(tasks: seq<Task>, id: string, d: TaskFormData, freshId: string, now: int)
    ensures var r := SaveTask(tasks, Some(id), d, freshId, now);
            |r| == |tasks| && forall i :: 0 <= i < |r| ==> r[i].id == tasks[i].id
  {
  }

  /** Saving the same edit twice is the same as saving it once. */
  lemma SaveTaskEditIdempotent(tasks: seq<Task>, id: string, d: TaskFormData, freshId: string, now: int)
    ensures var once := SaveTask(tasks, Some(id), d, freshId, now);
            SaveTask(once, Some(id), d, freshId, now) == once
  {
    var once := SaveTask(tasks, Some(id), d, freshId, now);
    var twice := SaveTask(once, Some(id), d, freshId, now);
    forall i | 0 <= i < |tasks|
      ensures twice[i] == once[i]
    {
      if tasks[i].id == id {
        assert MergeForm(MergeForm(tasks[i], d, now), d, now) == MergeForm(tasks[i], d, now);
      }
    }
  }

  // ----- Drag-and-drop between columns -----

  /** A place on the board: a column and a position within it. */
  datatype Location = Location(column: TaskStatus, index: nat)

  /** What the drag-and-drop library reports when a drag ends; no destination means a drop outside. */
  datatype DropResult = DropResult(source: Location, destination: Option<Location>)

  /** A drop outside every column, or back where the card came from. */
  predicate IsNoOpDrop(drop: DropResult) {
    drop.destination.None? || drop.destination.value == drop.source
  }

  /** The tasks of one column, in list order. */
  function ColumnTasks(tasks: seq<Task>, column: TaskStatus): (r: seq<Task>)
    ensures IsSubsequence(r, tasks)
    ensures forall t | t in r :: t in tasks && t.status == column
    ensures forall t | t in tasks && t.status == column :: t in r
    ensures forall t :: multiset(r)[t] == if t.status == column then multiset(tasks)[t] else 0
  {
    FilterCountsAll((t: Task) => t.status == column, tasks);
    Filter((t: Task) => t.status == column, tasks)
  }

  /** The error the page raises when the dragged position holds no task. */
  const MissingTaskError := "TypeError: Cannot read properties of undefined (reading 'title')"

  /**
    `onDragEnd`: the `source.index`-th task of the source column gets the destination's status
    and moves to the end of the list; the destination's index plays no part.
   */
  function OnDragEnd(tasks: seq<Task>, drop: DropResult, now: int): (r: Result<seq<Task>, string>)
    ensures IsNoOpDrop(drop) ==> r == Success(tasks)
    ensures r.Failure? <==>
              !IsNoOpDrop(drop) && drop.source.index >= |ColumnTasks(tasks, drop.source.column)|
    ensures r.Success? && !IsNoOpDrop(drop) ==> |r.value| >= 1
    ensures r.Success? && !IsNoOpDrop(drop) && |r.value| >= 1 ==>
              var moved := ColumnTasks(tasks, drop.source.column)[drop.source.index];
              var rest := r.value[..|r.value| - 1];
              && moved in tasks
              && r.value[|r.value| - 1] == moved.(status := drop.destination.value.column, updatedAt := now)
              && IsSubsequence(rest, tasks)
              && (forall t | t in rest :: t in tasks && t.id != moved.id)
              && (forall t | t in tasks && t.id != moved.id :: t in rest)
              && (forall t :: multiset(rest)[t] == if t.id != moved.id then multiset(tasks)[t] else 0)
  {
    if IsNoOpDrop(drop) then Success(tasks)
    else
      var column := ColumnTasks(tasks, drop.source.column);
      if drop.source.index >= |column| then Failure(MissingTaskError)
      else
        var moved := column[drop.source.index];
        var others := Filter((t: Task) => t.id != moved.id, tasks);
        FilterCountsAll((t: Task) => t.id != moved.id, tasks);
        assert (others + [moved.(status := drop.destination.value.column, updatedAt := now)])[..|others|] == others;
        Success(others + [moved.(status := drop.destination.value.column, updatedAt := now)])
  }

  /** With unique ids a move neither loses nor duplicates a task. */
  lemma OnDragEndKeepsLength(tasks: seq<Task>, drop: DropResult, now: int)
    requires UniqueIds(tasks)
    requires OnDragEnd(tasks, drop, now).Success?
    ensures |OnDragEnd(tasks, drop, now).value| == |tasks|
  {
    if !IsNoOpDrop(drop) {
      var moved := ColumnTasks(tasks, drop.source.column)[drop.source.index];
      assert moved in ColumnTasks(tasks, drop.source.column);
      OthersOneShorter(tasks, moved);
    }
  }

  /** Removing the one task that has the id of a member of the list shortens it by one. */
  lemma {:induction false} OthersOneShorter(tasks: seq<Task>, moved: Task)
    requires UniqueIds(tasks)
    requires moved in tasks
    ensures |Filter((t: Task) => t.id != moved.id, tasks)| == |tasks| - 1
    decreases |tasks|
  {
    var p := (t: Task) => t.id != moved.id;
    var tail := tasks[1..];
    assert UniqueIds(tail) by {
      forall i, j | 0 <= i < j < |tail|
        ensures tail[i].id != tail[j].id
      {
        assert tail[i] == tasks[i + 1] && tail[j] == tasks[j + 1];
      }
    }
    if tasks[0] == moved {
      assert forall i :: 0 <= i < |tail| ==> p(tail[i]) by {
        forall i | 0 <= i < |tail|
          ensures p(tail[i])
        {
          assert tail[i] == tasks[i + 1];
        }
      }
      FilterKeepsLength(p, tail);
    } else {
      var k :| 0 <= k < |tail| && tail[k] == moved;
      assert tasks[k + 1] == moved;
      assert p(tasks[0]);
      OthersOneShorter(tail, moved);
    }
  }

  /** Where in the destination column the card was dropped makes no difference. */
  lemma DestinationIndexIgnored(tasks: seq<Task>, source: Location, column: TaskStatus, i: nat, j: nat, now: int)
    requires Location(column, i) != source && Location(column, j) != source
    ensures OnDragEnd(tasks, DropResult(source, Some(Location(column, i))), now)
         == OnDragEnd(tasks, DropResult(source, Some(Location(column, j))), now)
  {
  }

  // ----- Search and priority filters -----

  /** The priority drop-down: every priority, or just one. */
  datatype PriorityFilter = AllPriorities | OnlyPriority(priority: Priority)

  /**
    The search test: a blank (after trimming) term matches everything; otherwise the untrimmed
    term, lowered, must occur in the lowered title or in a non-empty description.
   */
  predicate MatchesSearch(t: Task, term: string) {
    || Trim(term) == ""
    || Contains(Lower(t.title), Lower(term))
    || (t.description.Some? && t.description.value != "" && Contains(Lower(t.description.value), Lower(term)))
  }

  predicate MatchesPriority(t: Task, f: PriorityFilter) {
    f.AllPriorities? || t.priority == f.priority
  }

  /** `applyFilters`: the tasks that pass both tests, in list order. */
  function ApplyFilters(tasks: seq<Task>, term: string, f: PriorityFilter): (r: seq<Task>)
    ensures IsSubsequence(r, tasks)
    ensures forall t | t in r :: t in tasks && MatchesSearch(t, term) && MatchesPriority(t, f)
    ensures forall t | t in tasks && MatchesSearch(t, term) && MatchesPriority(t, f) :: t in r
    ensures AllWhitespace(term) && f == AllPriorities ==> r == tasks
    ensures forall t :: multiset(r)[t] == if MatchesSearch(t, term) && MatchesPriority(t, f) then multiset(tasks)[t] else 0
  {
    FilterCountsAll((t: Task) => MatchesSearch(t, term) && MatchesPriority(t, f), tasks);
    Filter((t: Task) => MatchesSearch(t, term) && MatchesPriority(t, f), tasks)
  }
}

=== FILE: uri_encoding.dfy ===
/**
  `encodeURIComponent` as section 19.2.6.5 of ECMA-262 defines it: every character outside the
  unreserved set becomes the `%XX` escapes of its UTF-8 bytes. `DecodeUriComponent` is its
  inverse, so that a built link can be read back.
 */
module UriEncoding {
  import opened Wrappers

  type Byte = x: int | 0 <= x < 256

  /** The characters `encodeURIComponent` copies unescaped: letters, digits and `-_.!~*'()`. */
  predicate IsUnreserved(c: char) {
    || ('A' <= c <= 'Z') || ('a' <= c <= 'z') || ('0' <= c <= '9')
    || c == '-' || c == '_' || c == '.' || c == '!' || c == '~' || c == '*' || c == '\'' || c == '(' || c == ')'
  }

  /** An upper-case hexadecimal digit, as the escapes use. */
  predicate IsUpperHex(c: char) {
    ('0' <= c <= '9') || ('A' <= c <= 'F')
  }

  /** The upper-case hexadecimal digit of `n`. */
  function HexDigit(n: int): (c: char)
    requires 0 <= n < 16
    ensures IsUpperHex(c)
    ensures HexValue(c) == Some(n)
  {
    if n < 10 then ('0' as int + n) as char else ('A' as int + n - 10) as char
  }

  /** The value of a hexadecimal digit of either case. */
  function HexValue(c: char): (r: Option<int>)
    ensures r.Some? ==> 0 <= r.value < 16
    ensures r.Some? <==> ('0' <= c <= '9') || ('A' <= c <= 'F') || ('a' <= c <= 'f')
  {
    if '0' <= c <= '9' then Some(c as int - '0' as int)
    else if 'A' <= c <= 'F' then Some(c as int - 'A' as int + 10)
    else if 'a' <= c <= 'f' then Some(c as int - 'a' as int + 10)
    else None
  }

  /** A continuation byte of UTF-8, `10xxxxxx`. */
  predicate IsContinuation(b: int) {
    0x80 <= b < 0xC0
  }

  /** The UTF-8 encoding of one Unicode scalar value. */
  function Utf8(c: char): (bs: seq<Byte>)
    ensures 1 <= |bs| <= 4
    ensures |bs| == SequenceLength(bs[0])
    ensures forall k :: 1 <= k < |bs| ==> IsContinuation(bs[k])
    ensures DecodeUtf8(bs) == Some(c)
  {
    var n := c as int;
    var n1, r0 := n / 64, n % 64;
    var n2, r1 := n1 / 64, n1 % 64;
    var n3, r2 := n2 / 64, n2 % 64;
    if n < 0x80 then [n]
    else if n < 0x800 then [0xC0 + n1, 0x80 + r0]
    else if n < 0x10000 then [0xE0 + n2, 0x80 + r1, 0x80 + r0]
    else [0xF0 + n3, 0x80 + r2, 0x80 + r1, 0x80 + r0]
  }

  /** How many bytes a UTF-8 sequence with this lead byte has; 0 when it cannot lead one. */
  function SequenceLength(lead: int): (n: int)
    ensures 0 <= n <= 4
  {
    if 0 <= lead < 0x80 then 1
    else if 0xC0 <= lead < 0xE0 then 2
    else if 0xE0 <= lead < 0xF0 then 3
    else if 0xF0 <= lead < 0xF8 then 4
    else 0
  }

  /**
    The scalar value that exactly the bytes `bs` encode; `None` for overlong forms, surrogates,
    values above U+10FFFF and malformed sequences, which `decodeURIComponent` rejects.
   */
  function DecodeUtf8(bs: seq<Byte>): (r: Option<char>)
    ensures r.Some? ==> 1 <= |bs| <= 4 && |bs| == SequenceLength(bs[0])
  {
    if |bs| == 0 || SequenceLength(bs[0]) != |bs| then None
    else if exists k :: 1 <= k < |bs| && !IsContinuation(bs[k]) then None
    else if |bs| == 1 then Some(bs[0] as char)
    else if |bs| == 2 then
      var v: int := (bs[0] as int - 0xC0) * 64 + (bs[1] as int - 0x80);
      if v < 0x80 then None else Some(v as char)
    else if |bs| == 3 then
      var v: int := ((bs[0] as int - 0xE0) * 64 + (bs[1] as int - 0x80)) * 64 + (bs[2] as int - 0x80);
      if v < 0x800 || (0xD800 <= v < 0xE000) then None else Some(v as char)
    else
      var v: int := (((bs[0] as int - 0xF0) * 64 + (bs[1] as int - 0x80)) * 64 + (bs[2] as int - 0x80)) * 64 + (bs[3] as int - 0x80);
      if v < 0x10000 || v > 0x10FFFF then None else Some(v as char)
  }

  /** The escape `%XX` of one byte. */
  function PercentByte(b: Byte): (e: string)
    ensures |e| == 3 && e[0] == '%' && IsUpperHex(e[1]) && IsUpperHex(e[2])
  {
    ['%', HexDigit(b / 16), HexDigit(b % 16)]
  }

  /** The escapes of a byte sequence, one after the other. */
  function PercentBytes(bs: seq<Byte>): (e: string)
    ensures |e| == 3 * |bs|
    ensures forall k :: 0 <= k < |e| ==> e[k] == '%' || IsUpperHex(e[k])
  {
    if |bs| == 0 then "" else PercentByte(bs[0]) + PercentBytes(bs[1..])
  }

  /** The encoding of one character. */
  function EncodeChar(c: char): (e: string)
    ensures 1 <= |e|
    ensures forall k :: 0 <= k < |e| ==> IsUnreserved(e[k]) || e[k] == '%'
    ensures IsUnreserved(c) <==> e == [c]
  {
    if IsUnreserved(c) then [c] else PercentBytes(Utf8(c))
  }

  /** `encodeURIComponent(s)`: only unreserved characters and `%` escapes remain. */
  function EncodeUriComponent(s: string): (e: string)
    ensures |e| >= |s|
    ensures forall k :: 0 <= k < |e| ==> IsUnreserved(e[k]) || e[k] == '%'
  {
    if |s| == 0 then "" else EncodeChar(s[0]) + EncodeUriComponent(s[1..])
  }

  /** The byte an escape `%XX` at the start of `s` denotes. */
  function ReadByte(s: string): (r: Option<Byte>)
  {
    if |s| < 3 || s[0] != '%' then None
    else match (HexValue(s[1]), HexValue(s[2]))
      case (Some(h), Some(l)) => Some(h * 16 + l)
      case _ => None
  }

  /** The bytes of `n` consecutive escapes at the start of `s`. */
  function ReadBytes(s: string, n: nat): (r: Option<seq<Byte>>)
    ensures r.Some? ==> |r.value| == n && |s| >= 3 * n
    decreases n
  {
    if n == 0 then Some([])
    else match ReadByte(s)
      case None => None
      case Some(b) =>
        match ReadBytes(s[3..], n - 1)
        case None => None
        case Some(rest) => Some([b] + rest)
  }

  /** `decodeURIComponent(s)`; `None` where it would throw a `URIError`. */
  function DecodeUriComponent(s: string): (r: Option<string>)
    decreases |s|
  {
    if |s| == 0 then Some("")
    else if s[0] != '%' then
      match DecodeUriComponent(s[1..])
      case None => None
      case Some(rest) => Some([s[0]] + rest)
    else
      match ReadByte(s)
      case None => None
      case Some(lead) =>
        var n := SequenceLength(lead);
        if n == 0 then None
        else match ReadBytes(s, n)
          case None => None
          case Some(bs) =>
            match DecodeUtf8(bs)
            case None => None
            case Some(c) =>
              match DecodeUriComponent(s[3 * n..])
              case None => None
              case Some(rest) => Some([c] + rest)
  }

  /** Decoding undoes encoding: no text is lost or altered in a link. */
  lemma {:induction false} DecodeEncode(s: string)
    ensures DecodeUriComponent(EncodeUriComponent(s)) == Some(s)
    decreases |s|
  {
    if |s| > 0 {
      DecodeEncode(s[1..]);
      DecodeOneChar(s[0], EncodeUriComponent(s[1..]));
      assert s == [s[0]] + s[1..];
    }
  }

  /** Decoding reads the encoding of one character back and continues after it. */
  lemma DecodeOneChar(c: char, tail: string)
    requires DecodeUriComponent(tail).Some?
    ensures DecodeUriComponent(EncodeChar(c) + tail) == Some([c] + DecodeUriComponent(tail).value)
  {
    var e := EncodeChar(c) + tail;
    if IsUnreserved(c) {
      assert e[1..] == tail;
    } else {
      DecodeEscapedChar(c, tail);
    }
  }

  /** The escapes of a character's UTF-8 bytes decode to that character. */
  lemma DecodeEscapedChar(c: char, tail: string)
    requires DecodeUriComponent(tail).Some?
    ensures DecodeUriComponent(PercentBytes(Utf8(c)) + tail) == Some([c] + DecodeUriComponent(tail).value)
  {
    var bs := Utf8(c);
    var e := PercentBytes(bs) + tail;
    ReadPercentBytes(bs, tail);
    ReadBytesHead(e, |bs|);
    assert e[3 * |bs|..] == tail;
    DecodeEscape(e, bs, c, tail);
  }

  /** The first of several escapes read is the byte at the start. */
  lemma ReadBytesHead(s: string, n: nat)
    requires n > 0 && ReadBytes(s, n).Some?
    ensures |s| > 0 && s[0] == '%' && ReadByte(s) == Some(ReadBytes(s, n).value[0])
  {
  }

  /** One escaped character followed by `tail` decodes to the character and then `tail` decoded. */
  lemma DecodeEscape(e: string, bs: seq<Byte>, c: char, tail: string)
    requires |bs| > 0 && |e| >= 3 * |bs| && e[0] == '%'
    requires ReadByte(e) == Some(bs[0]) && SequenceLength(bs[0]) == |bs|
    requires ReadBytes(e, |bs|) == Some(bs) && DecodeUtf8(bs) == Some(c)
    requires e[3 * |bs|..] == tail && DecodeUriComponent(tail).Some?
    ensures DecodeUriComponent(e) == Some([c] + DecodeUriComponent(tail).value)
  {
  }

  /** Reading back the escapes of `bs` yields `bs`, whatever follows them. */
  lemma {:induction false} ReadPercentBytes(bs: seq<Byte>, tail: string)
    ensures ReadBytes(PercentBytes(bs) + tail, |bs|) == Some(bs)
    decreases |bs|
  {
    if |bs| > 0 {
      var b := bs[0];
      var e := PercentBytes(bs) + tail;
      assert e == PercentByte(b) + (PercentBytes(bs[1..]) + tail);
      ReadEscapedByte(b, PercentBytes(bs[1..]) + tail);
      assert e[3..] == PercentBytes(bs[1..]) + tail;
      ReadPercentBytes(bs[1..], tail);
      assert [b] + bs[1..] == bs;
    }
  }

  /** An escape reads back as the byte it escapes. */
  lemma ReadEscapedByte(b: Byte, rest: string)
    ensures ReadByte(PercentByte(b) + rest) == Some(b)
  {
    var e := PercentByte(b) + rest;
    assert e[1] == HexDigit(b / 16) && e[2] == HexDigit(b % 16);
  }
}

=== FILE: wrappers.dfy ===
/** Failure-carrying values shared by every page model. */
module Wrappers {

  /** A value that may be absent: JavaScript's `undefined` or `null`. */
  datatype Option<+T> = None | Some(value: T) {

    /** The wrapped value, or `default` when there is none. */
    function GetOr(default: T): T {
      match this
      case Some(v) => v
      case None => default
    }
  }

  /** The outcome of a handler that either completes or throws. */
  datatype Result<+R, +E> = Success(value: R) | Failure(error: E)

  /**
    A field of `{ ...before, ...patch }`: `after` is the patch's value when the patch carries
    the field, and `before` when it does not.
   */
  predicate Patched<T(==)>(patch: Option<T>, before: T, after: T) {
    if patch.Some? then after == patch.value else after == before
  }

  /** Like `Patched`, for a field the record itself may lack. */
  predicate PatchedOptional<T(==)>(patch: Option<T>, before: Option<T>, after: Option<T>) {
    if patch.Some? then after == patch else after == before
  }
}
